=== FILE: README.md ===
# fmtools templates and joins, in Dafny

This project models the core of `fmtools`, a Rust crate that formats values
through templates written in macro syntax.

`fmt!("Hello "{name}"!")` expands, at compile time, into a closure that writes
to a `core::fmt::Formatter`. The template may contain:

- string literals;
- interpolations `{expr}` and `{expr:spec}`;
- `let` bindings;
- escape-hatch code `|f| …`;
- `if` / `else if` / `if let` / `else` chains, `match` and `for`;
- parenthesised groups that batch segments.

`join(sep, collection)` displays the items of a collection with a separator
between each pair. `join!(sep; e1, …, en)` builds the same thing as one format
string.

The model has two parts.

**The template compiler.** Each `macro_rules!` arm is a rewrite on token
lists, so the compiler is a set of pure recursive functions from token trees
(`Tokens.Tok`: literals, identifiers, punctuation, keywords, and the three
kinds of group) to a write plan (`Plans.Node`).

- Groups are single tokens. This is why scanning for the brace that ends an
  expression, or the comma that ends an arm, looks only at the top level.
- Rust's fragment parsers (`expr`, `pat`, `stmt`) are replaced by their
  delimiters. A pattern runs up to the token that must follow it. An
  expression is a non-empty token list with no top-level `,` or `;`
  (`Tokens.IsExpr`).
- Expressions, patterns and escape-hatch code stay opaque.

**Rendering.** Rendering has two layers:

- A reference semantics, `Plans.EmitPlan`: the writes a plan attempts, in
  order, and the scope it leaves.
- The faithful run, `Plans.RenderPlan`: every write is followed by `?`, so the
  run stops at the first write the sink refuses. Whether a sink refuses a
  write may depend on everything it has accepted so far (`Sink.Accept`).

`RenderProps.RenderPlanDelivers` proves that the faithful run delivers exactly
the reference writes to the sink (`Sink.Deliver`).

What the host language does with expressions and patterns is a parameter,
`Plans.Host`: binding, truth of a condition, pattern tests, the scopes of loop
iterations, `format_args!` display, binding the escape hatch's alias to the
formatter, and what escape-hatch code writes. The alias binding
`let f = &mut *_f;` sits outside the escape hatch's block, so it stays
visible after the block; a statement's own bindings stay visible too.

Files:

- `wrappers.dfy`: `Option`, `Result`.
- `tokens.dfy`: token trees, `Find`, size measures, `stringify!` spelling.
- `sink.dfy`: the sink and `Deliver`.
- `plans.dfy`: the plan, the host, `EmitPlan` and `RenderPlan`.
- `render_props.dfy`: rendering theorems.
- `scan.dfy`: `__with_parens` and `__until_comma`.
- `template.dfy`: `fmt!`, `__fmt`, `__fmt_format`/`__fmt_expr`, `__fmt_if`,
  `__fmt_match`.
- `template_props.dfy`: compiler theorems.
- `join.dfy`: `join`, `join!`, `__join!`.

## Model

| member | source | states |
|---|---|---|
| Template.Fmt | src/template.rs:150-163 | `fmt!` records capture by value exactly when the first token is `move`; the plan is the compilation of the tokens after an optional leading `move`, and `fmt!` fails exactly when, and with the error that, that compilation fails |
| Template.Compile | src/template.rs:167-241 | whatever compiles is well formed: every `format_args!` has one or two expression arguments, every `let`, test, scrutinee and iterator is an expression, every pattern and alias is non-empty, every `if` has a branch, at every level of nesting |
| Template.LitRun | src/template.rs:169-178 | the literal run at the head is maximal: every token in it is a literal and the token after it, if any, is not |
| TemplateProps.ConcatAppend | src/template.rs:176-181 | `concat!` of a run built up literal by literal is the in-order concatenation of the texts: the concatenation of `a + b` is that of `a` followed by that of `b` |
| TemplateProps.LiteralsCoalesce | src/template.rs:169-182 | one or more adjacent literals followed by a non-literal compile to ONE `write_str` of the in-order concatenation of their texts, followed by the rest; an error in the rest is returned unchanged |
| TemplateProps.SplitLiteral | src/template.rs:169-182 | any literal run compiles exactly like the single literal holding its concatenation, whatever follows |
| TemplateProps.LiteralsRender | src/template.rs:169-182 | a template of literals renders as one write of their plain concatenation |
| TemplateProps.TwoLiterals | src/template.rs:381 | `"abc" "def"` compiles to `write_str("abcdef")` |
| Template.Interpolate | src/template.rs:185-188 | a brace group compiles to one `write_fmt` with one or two arguments, each an expression |
| TemplateProps.InterpolationSplits | src/template.rs:248-268 | an interpolation splits at its first top-level `:` or `;`; the tokens before are the arguments; the format string is the `stringify!` spelling of `:` followed by the specifier, in braces, for either separator, so `;` is normalised to `:` |
| TemplateProps.InterpolationPlain | src/template.rs:257-265 | with no separator the format string is exactly `"{}"` |
| TemplateProps.HexInterpolation | src/template.rs:386 | `{value:#x}` formats `value` with `"{:#x}"` |
| Template.Arguments | src/template.rs:267-268 | with no top-level comma the arguments succeed exactly when the tokens are an expression, and are that one expression; with one, exactly when the tokens before and after the first comma are expressions, and are those two, which put the input back together; otherwise the error is "no rule" naming the tokens |
| Template.CompileEscape | src/template.rs:191-200 | a compiled escape hatch starts with escape-hatch code whose alias is the tokens before the second pipe, and is well formed |
| Template.EscapeStmt | src/template.rs:196-200 | escape-hatch code that is not a block is the statement up to the first top-level `;` |
| TemplateProps.EscapeBlockCompiles | src/template.rs:191-195 | an escape hatch whose code is a brace block compiles to escape-hatch code as a block, then the rest |
| TemplateProps.EscapeStmtCompiles | src/template.rs:196-200 | an escape hatch whose code is not a block compiles to one statement ending at the first top-level `;`, then the rest |
| TemplateProps.EscapeScopesRest | src/template.rs:191-195 | an escape hatch with alias `f` and a block writes the block's writes first, in the scope with `f` bound; the rest of the template then runs with `f` still bound but without anything the block bound |
| TemplateProps.EscapeStmtScopesRest | src/template.rs:196-200 | an escape hatch with alias `f` and a statement writes the statement's writes first; the rest of the template runs in the scope the statement leaves, `f` included |
| Template.CompileLet | src/template.rs:203-206 | a compiled `let` starts with a binding whose pattern is the tokens before the first top-level `=`, and is well formed |
| TemplateProps.LetCompiles | src/template.rs:203-206 | `let p = e;` compiles to a binding of `p` to `e`, then the rest |
| TemplateProps.LetScopesRest | src/template.rs:203-206 | the compiled `let p = e; rest` writes exactly what `rest` writes in the scope with `p` bound to `e`, and leaves the scope `rest` leaves there |
| Template.Header | src/template.rs:214-220 | the expression before a block succeeds exactly when a top-level brace group follows; otherwise it fails with "missing block" naming the tokens; the expression is an expression and the block and rest are smaller |
| TemplateProps.HeaderSplitsAtFirstBrace | src/template.rs:214-220 | for any tokens `e` with no top-level brace group, the header of `e {b} t` is exactly expression `HeadExpr(e)`, block `b`, rest `t`: the interior when `e` is one paren group holding an expression, otherwise `e`, parenthesised when it is not an expression by itself |
| Template.CompileMatch | src/template.rs:214-220 | a compiled `match` starts with a match statement and is well formed |
| TemplateProps.MatchCompiles | src/template.rs:214-220 | for any scrutinee tokens `e` without a top-level brace group and any list of accepted source arms, `match e { arms }` compiles to a match of the header's reading of `e` on one arm per source arm, in source order, each with its pattern, guard and compiled body, then the rest |
| Template.CompileFor | src/template.rs:223-231 | a compiled `for` starts with a loop whose pattern is the tokens before the first top-level `in`, and is well formed |
| TemplateProps.ForSplitsAtIn | src/template.rs:223-231 | with the pattern `p` before the first `in`, compiling `p in …` reads the header, then the body, then the rest: the first of them that fails gives the error, and otherwise the result is a loop of `p` over the header's expression with the compiled body, then the compiled rest |
| TemplateProps.ForCompiles | src/template.rs:223-231 | for any iterator tokens `e` without a top-level brace group, `for p in e { b }` compiles to a loop of `p` over the header's reading of `e` with the compiled body, then the rest |
| TemplateProps.ForNeedsBlock | src/template.rs:229-230 | `for p in e` with no block after `e` fails with "missing block" naming `e` |
| TemplateProps.ParenTransparent | src/template.rs:234-237 | flattening is invisible in the output: the writes are the contents' writes, then the rest's in the scope the contents leave |
| Scan.WithParens | src/template.rs:326-336 | succeeds exactly when a top-level brace group remains and stops at the FIRST one; the expression is everything before it; on failure the error is "missing block" with everything collected |
| TemplateProps.WithParensStopsAtFirstBrace | src/template.rs:326-331 | with no brace group in `e`, collecting over `e {b} t` gives exactly expression `e`, block `b`, rest `t`; braces nested in groups inside `e` do not stop it |
| TemplateProps.HeaderNeedsBlock | src/template.rs:333-336 | without a top-level brace group the header fails with "missing block" naming the tokens |
| Template.Condition | src/template.rs:276-305 | a test is an `if let` exactly when it starts with `let`, and then its pattern is the non-empty tokens before the first top-level `=`; the test's expression is an expression and is the header's expression; the block and rest are smaller |
| TemplateProps.ConditionOf | src/template.rs:276-305 | for any test (`e` or `let p = e`, with no top-level brace group in `e`), the condition is exactly `e` as the header reads it, bound by `p` when there is one, and the block and rest are what follow the first brace |
| Template.IfChain | src/template.rs:274-321 | collecting a chain onto well-formed statements gives well-formed statements |
| TemplateProps.IfStep | src/template.rs:276-289 | `if test { b }`, with a plain or an `if let` test, appends a new, separate chain with one branch: the test's condition and the compiled block |
| TemplateProps.ElseIfStep | src/template.rs:292-305 | `else if test { b }`, with a plain or an `if let` test, adds that branch at the end of the open chain |
| TemplateProps.ElseIfLinks | src/template.rs:292-305 | any number of `else if` links extend the open chain with one branch each, in source order |
| TemplateProps.ChainCompiles | src/template.rs:274-321 | `if t0 {b0}` followed by any number of `else if` links and an optional `else {e}` compiles to ONE conditional with one branch per test in source order and the `else` block (or none), then the rest |
| TemplateProps.IfThenIfIndependent | src/template.rs:284-320 | `if t1 {b1} if t2 {b2}` gives two independent conditionals |
| Template.ArmHead | src/template.rs:342-350 | an arm head splits `ts` into a non-empty pattern with no top-level `if` or `=>`, an optional guard that is an expression, and the tokens after `=>`, which put `ts` back together as `p => after` or `p if g => after` |
| TemplateProps.HeadPlain | src/template.rs:348-350 | an arm's pattern ends at the first top-level `=>` |
| TemplateProps.HeadGuarded | src/template.rs:342-350 | in `p if g =>` the pattern ends at `if` and the guard at `=>`; the guard is kept |
| Template.Arms | src/template.rs:342-355 | collecting arms keeps the arms collected before, in order, at the front, and keeps them well formed |
| TemplateProps.ArmsCompile | src/template.rs:342-355 | for any number of arms `p [if g] => {b}[,]` or `p [if g] => b,` (the last bare body may end without its comma), each with a plain pattern, a guard that is an expression and a body that compiles, the arms collected are those already collected followed by one arm per source arm, in source order, with its pattern, its guard and its compiled body |
| TemplateProps.UnbracedBody | src/template.rs:348-350 | an unbraced arm body runs to the first top-level comma, which is consumed, or to the end of the arms |
| Scan.UntilComma | src/template.rs:361-369 | splits its input into a body with no new top-level comma and a rest that is empty or starts with the comma; together they put the input back |
| TemplateProps.UntilCommaStopsAtFirstComma | src/template.rs:361-369 | the body is exactly the tokens before the first top-level comma, and the comma stays with the rest |
| TemplateProps.ArmsExample | src/template.rs:408 | `0 => "0", 1 => {} _ => {},` compiles to three arms in order with bodies `write_str("0")`, nothing and nothing |
| Plans.EmitPlan | src/template.rs:172-237 | the scope a plan leaves is the fold of what each statement binds: a `let` its binding, escape-hatch code its alias (and, for a statement, what the statement binds); nothing bound inside an `if`, `match` or `for` body, or inside an escape-hatch block, reaches the statements after it |
| Plans.RenderPlan | src/template.rs:172-188 | rendering only appends to what the sink holds, and once the sink has failed it writes nothing more |
| Plans.FirstBranch | src/template.rs:308-314 | a chain takes the least branch whose test passes, in the scope its test gives; none when no test passes |
| Plans.FirstArm | src/template.rs:351-355 | a match takes the least arm whose pattern matches and whose guard then holds |
| RenderProps.IfTakesFirstPassing | src/template.rs:276-320 | a conditional renders only the body of the first branch whose test passes |
| RenderProps.IfOtherwise | src/template.rs:308-320 | when no test passes a chain renders its else block, or nothing |
| RenderProps.MatchTakesFirstAccepting | src/template.rs:351-355 | a match renders only the body of the first arm that accepts the scrutinee |
| RenderProps.LoopOncePerItem | src/template.rs:223-228 | a loop renders its body once per item in iteration order: nothing for no items, the body for one, and runs of items concatenate |
| RenderProps.EmitConcat | src/template.rs:172-175 | running `a + b` is running `a`, then `b` in the scope `a` leaves |
| RenderProps.RenderPlanDelivers | src/template.rs:172-188 | with `?` after every write, rendering delivers exactly the plan's writes in order and stops at the first refused write; an unfailed rendering leaves the plan's scope |
| Sink.Deliver | src/template.rs:172-174 | the sink keeps a prefix of the attempted writes, each accepted; it fails exactly when a write was refused, and that write is the one after the prefix |
| Sink.DeliverConcat | src/template.rs:172-175 | delivering `a + b` is delivering `a`, then `b` to what remains |
| Join.RenderItems | src/join.rs:13-22 | the display loop only appends to what the sink holds, and writes nothing once the sink has failed |
| Join.Display | src/join.rs:10-24 | displaying a `join` value delivers the reference joined writes to the sink: the longest accepted prefix, nothing after the first failure |
| Join.RenderDelivers | src/join.rs:13-21 | the loop with its `draw` flag delivers the separator due before the first item and then the reference join, so the separator goes between items and never before the first or after the last |
| Join.JoinWritesCons | src/join.rs:13-21 | the join of `x` and more items is `x`, then one separator, then the join of the rest |
| Join.JoinShort | src/join.rs:13-22 | whatever the separator, the display loop over no items leaves the sink as it is, and over one item delivers that item's writes alone, with no separator |
| Join.EmptySeparator | src/join.rs:15-20 | an empty separator writes the items one after another, with no separator write |
| Join.DisplayTwice | src/join.rs:11-14 | displaying the same value twice walks all the items twice |
| Join.DisplayComplete | src/join.rs:12-24 | a sink that never fails receives the whole join |
| Join.DashedExample | src/join.rs:5-7 | `join("--", [1, 2, 3, 4])` writes `1`, `--`, `2`, `--`, `3`, `--`, `4`, which spell `1--2--3--4` |
| Join.JoinMacro | src/join.rs:52-73 | `join!` exists exactly when there is at least one expression; its arguments are the expressions in order; its format string is the per-item string joined by the separator, one per expression; the per-item string defaults to `"{}"` |
| Join.JoinArgs | src/join.rs:77-84 | `__join!` keeps the pieces and arguments collected so far at the front, appends the expressions in order to the arguments, and appends `2n - 1` pieces for `n` expressions: the per-item string at even offsets and the separator between them |
| Join.JoinArgsFormat | src/join.rs:77-84 | the format string `__join!` collects is `s sep s … s`, one `s` per expression |
| Join.ThreeArgsExample | src/join.rs:30-31 | `join!("--"; a, b, c)` formats `a, b, c` with the pieces `{}`, `--`, `{}`, `--`, `{}` |

## Where the code and the documentation differ

Each point below follows the code.

- **Literals separated by a paren group are not merged.** The batching rule
  compiles a paren group on its own (src/template.rs:234-237). So
  `"a" ("b")` gives two adjacent `write_str`s, not one; the rendered text is
  the same (`TemplateProps.ParenTransparent`).
- **An empty `match` scrutinee becomes the unit value.** `match { … }` goes
  through `__with_parens` with nothing collected. It comes back as `match ()`
  and is re-collected as the expression `()` (`Template.Wrap`).

## Left out

- `src/prelude.rs` (print, format and write wrappers) is not part of this model. It only forwards to the standard macros.
- The `fmt` wrapper type in `src/lib.rs` is not part of this model. A rendering is modelled directly as a function of the sink state.
- `obfstr!` is an identity hook; literal text is written as it is.
- `core::fmt` specifier semantics (`#x`, width `1$`, precision) and value display are the host's `display` function, uninterpreted. The check that a two-argument interpolation's specifier uses its second argument belongs to `format_args!` and is not modelled.
- Rust's `expr`, `pat`, `stmt` and `block` fragment parsers are approximated by delimiters. An expression is any non-empty token list without a top-level `,` or `;`. A pattern is the non-empty tokens before its delimiter. Consequences: a `-1` literal is one `Lit` token, and some forms the macro rejects are accepted. For example `let x: T = e;` matches no rule of the macro, because the `$p:pat` fragment stops at `:` where the rule expects `=`; the model accepts it and binds the pattern `x : T`.
- `stringify!` spelling of a literal token uses its text as given in the `Lit` token.
- Tokens.Tok: a `Lit` token keeps only the text `concat!` makes of it, not the literal's kind. So `0` and `"0"` are the same token, and so are `'a'` and `"a"`. A host reading a pattern, a guard or an interpolated expression therefore cannot tell `0 =>` from `"0" =>` or `{'a':?}` from `{"a":?}`, although rustc treats them differently. The kind matters only to those host-side readings; literal text in the template is written the same either way.
- Tokens.Spaced: a group's interior is spelled with single spaces between tokens; `stringify!` follows its own spacing rules (for example no space before `,`), so the spelling of a group inside a format specifier or a "missing block" message can differ in whitespace.
- Escape-hatch code is opaque: the host says what it writes and which scope it leaves; errors it raises other than failed writes are not modelled.
- A `match` with no accepting arm renders nothing. In Rust such a match is rejected by the exhaustiveness check, which belongs to the host.
- `move` capture only sets `Template.byValue` and the `byValue` field of `Join.JoinCall`. Ownership and lifetimes have no counterpart.
- Macro recursion limits are not modelled; the batching rule is modelled only through its effect on the output.
- Plans.RenderPlan: escape-hatch code and host expressions are assumed to carry on to the next statement. The generated closure pastes them in as they are, so in Rust `|_| return Ok(());` ends the rendering early with success, `|_| break;` or `|_| continue;` inside a `for` body cuts the generated loop short, and a `?` on a non-write error in an interpolated expression, a test or escape-hatch code leaves the closure with that error. None of these jumps is modelled, and `RenderProps.RenderPlanDelivers` describes only templates whose code makes none of them.
- Plans.RenderPlan: the writes of escape-hatch code are delivered with `Deliver`, which stops at the first refused write; real escape-hatch code may ignore a failed write and go on writing.
- Plans.RenderPlan: `write_fmt` is one atomic write of the host's `display` text; a `Display` impl that fails on its own, and partial writes inside one `write_fmt`, are not modelled.
- Plans.Host: the host is pure. Expressions have no side effects, so evaluating a test, a scrutinee or an iterator cannot change the scope, and `items` gives the scopes of all iterations up front.
- Join.Display: an item's display is given as the list of writes it makes, each followed by `?`. An item type whose `Display` swallows a write error is not modelled.
- Join.JoinMacro: the format string is modelled as text; how `format_args!` interprets braces inside the separator is not modelled.

=== FILE: join.dfy ===
/** `join` and `join!`: displaying several items with a separator between
    each pair.

    `join(sep, collection)` returns a displayable value that, every time it is
    displayed, walks a fresh clone of the collection's iterator: it writes the
    separator before every item but the first (never, when the separator is
    empty) and then the item's own display, returning at the first failed
    write. An item's display is given here as the writes it makes.

    `join!(sep; e1, …, en)` does the same work at compile time: it builds one
    format string `s + sep + s + … + s` (one `s` per expression, `s` defaulting
    to `"{}"`) and one argument list, and writes them with one `write_fmt`. */
module Join {
  import opened Wrappers
  import opened Sink

  /** The value `join(sep, collection)` returns; `items` are the displays of the
      collection's items, in iteration order. */
  datatype Joined = Joined(sep: string, items: seq<seq<string>>)

  /** The separator's writes: none for an empty separator. */
  function SepWrites(sep: string): (r: seq<string>)
    ensures |r| <= 1 && (r == [] <==> sep == "")
  {
    if sep == "" then [] else [sep]
  }

  /** Reference: the writes of items joined by a separator. Each item after
      the first is preceded by exactly one separator. */
  function JoinWrites(sep: string, items: seq<seq<string>>): seq<string>
    decreases |items|
  {
    if items == [] then []
    else if |items| == 1 then items[0]
    else JoinWrites(sep, items[..|items| - 1]) + SepWrites(sep) + items[|items| - 1]
  }

  /** The display loop of `join`: `draw` records that an item has been drawn
      since the separator became due; it is set only for a non-empty
      separator, so an empty separator is never written. */
  function RenderItems(accept: Accept, sep: string, items: seq<seq<string>>, draw: bool, st: Stream): (r: Stream)
    ensures st.failed ==> r == st
    ensures st.written <= r.written
    decreases |items|
  {
    if items == [] then st
    else
      var st1 := if |sep| > 0 && draw then Put(accept, st, sep) else st;
      if st1.failed then st1
      else
        var st2 := Deliver(accept, st1, items[0]);
        if st2.failed then st2
        else RenderItems(accept, sep, items[1..], if |sep| > 0 then true else draw, st2)
  }

  /** Displaying a `join` value: the loop over a fresh clone of the items. */
  function Display(accept: Accept, j: Joined, st: Stream): (r: Stream)
    ensures r == Deliver(accept, st, JoinWrites(j.sep, j.items))
  {
    RenderDelivers(accept, j.sep, j.items, false, st);
    RenderItems(accept, j.sep, j.items, false, st)
  }

  // ---------------------------------------------------------------------------
  // The reference, read from the front

  /** Joining `[x] + ys` is `x`, then (if there is more) a separator and the
      join of `ys`. */
  lemma {:induction false} JoinWritesCons(sep: string, x: seq<string>, ys: seq<seq<string>>)
    ensures JoinWrites(sep, [x] + ys)
         == x + (if ys == [] then [] else SepWrites(sep) + JoinWrites(sep, ys))
    decreases |ys|
  {
    var xs := [x] + ys;
    if |ys| == 0 {
      assert xs == [x];
    } else if |ys| == 1 {
      assert xs[..1] == [x] && xs[1] == ys[0];
    } else {
      var init := ys[..|ys| - 1];
      assert xs[..|xs| - 1] == [x] + init;
      assert xs[|xs| - 1] == ys[|ys| - 1];
      JoinWritesCons(sep, x, init);
      assert JoinWrites(sep, ys) == JoinWrites(sep, init) + SepWrites(sep) + ys[|ys| - 1];
    }
  }

  /** The separator that falls due before the next item. */
  function Lead(sep: string, draw: bool, items: seq<seq<string>>): seq<string> {
    if draw && items != [] then SepWrites(sep) else []
  }

  lemma DeliverOne(accept: Accept, st: Stream, s: string)
    ensures Deliver(accept, st, [s]) == Put(accept, st, s)
  {
    assert [s][1..] == [];
  }

  /** The loop delivers the separator due before the first item, then the
      reference writes of the items. */
  lemma {:induction false} RenderDelivers(accept: Accept, sep: string, items: seq<seq<string>>, draw: bool, st: Stream)
    ensures RenderItems(accept, sep, items, draw, st)
         == Deliver(accept, st, Lead(sep, draw, items) + JoinWrites(sep, items))
    decreases |items|
  {
    if items == [] {
      assert Lead(sep, draw, items) + JoinWrites(sep, items) == [];
    } else {
      var x, ys := items[0], items[1..];
      var lead := Lead(sep, draw, items);
      var draw' := if |sep| > 0 then true else draw;
      var more := if ys == [] then [] else SepWrites(sep) + JoinWrites(sep, ys);
      assert items == [x] + ys;
      JoinWritesCons(sep, x, ys);
      assert more == Lead(sep, draw', ys) + JoinWrites(sep, ys);
      var st1 := if |sep| > 0 && draw then Put(accept, st, sep) else st;
      if |sep| > 0 && draw {
        DeliverOne(accept, st, sep);
      }
      assert Deliver(accept, st, lead) == st1;
      DeliverConcat(accept, st, lead, x + more);
      DeliverConcat(accept, st1, x, more);
      assert lead + JoinWrites(sep, items) == lead + (x + more);
      if !st1.failed {
        var st2 := Deliver(accept, st1, x);
        if !st2.failed {
          RenderDelivers(accept, sep, ys, draw', st2);
        }
      }
    }
  }

  // ---------------------------------------------------------------------------
  // Properties of `join`

  /** Displaying nothing writes nothing; one item is delivered alone, with
      no separator, whatever the separator is. */
  lemma JoinShort(accept: Accept, sep: string, x: seq<string>, st: Stream)
    ensures RenderItems(accept, sep, [], false, st) == st
    ensures RenderItems(accept, sep, [x], false, st) == Deliver(accept, st, x)
    ensures JoinWrites(sep, []) == [] && JoinWrites(sep, [x]) == x
  {
  }

  /** With an empty separator the items' writes follow one another. */
  lemma {:induction false} EmptySeparator(items: seq<seq<string>>)
    ensures JoinWrites("", items) == Flatten(items)
    decreases |items|
  {
    if |items| > 1 {
      var init := items[..|items| - 1];
      EmptySeparator(init);
      FlattenSnoc(init, items[|items| - 1]);
      assert init + [items[|items| - 1]] == items;
    } else if |items| == 1 {
      assert items[1..] == [];
    }
  }

  /** The writes of several items, one after the other. */
  function Flatten(items: seq<seq<string>>): (r: seq<string>)
    ensures |items| == 1 ==> r == items[0]
  {
    if items == [] then [] else items[0] + Flatten(items[1..])
  }

  lemma {:induction false} FlattenSnoc(items: seq<seq<string>>, y: seq<string>)
    ensures Flatten(items + [y]) == Flatten(items) + y
    decreases |items|
  {
    if items == [] {
      assert items + [y] == [y];
    } else {
      assert (items + [y])[1..] == items[1..] + [y];
      FlattenSnoc(items[1..], y);
    }
  }

  /** Displaying the same `join` value twice walks the items twice: each
      display clones the iterator afresh. */
  lemma DisplayTwice(accept: Accept, j: Joined, st: Stream)
    ensures Display(accept, j, Display(accept, j, st))
         == Deliver(accept, st, JoinWrites(j.sep, j.items) + JoinWrites(j.sep, j.items))
  {
    DeliverConcat(accept, st, JoinWrites(j.sep, j.items), JoinWrites(j.sep, j.items));
  }

  /** Into a sink that never fails, the display is the whole join. */
  lemma DisplayComplete(accept: Accept, j: Joined, st: Stream)
    requires AcceptsAll(accept) && !st.failed
    ensures Display(accept, j, st) == Stream(st.written + JoinWrites(j.sep, j.items), false)
  {
    DeliverAll(accept, st, JoinWrites(j.sep, j.items));
  }

  /** `join("--", &[1, 2, 3, 4]).to_string()` writes `1`, `--`, `2`, `--`,
      `3`, `--`, `4`, which spell `"1--2--3--4"`. */
  lemma DashedExample(accept: Accept)
    requires AcceptsAll(accept)
    ensures Display(accept, Joined("--", [["1"], ["2"], ["3"], ["4"]]), Stream([], false)).written
         == ["1", "--", "2", "--", "3", "--", "4"]
  {
    var items := [["1"], ["2"], ["3"], ["4"]];
    DisplayComplete(accept, Joined("--", items), Stream([], false));
    FourSingles("--", "1", "2", "3", "4");
    assert [] + JoinWrites("--", items) == JoinWrites("--", items);
  }

  /** Four one-write items joined by a non-empty separator. */
  lemma FourSingles(sep: string, a: string, b: string, c: string, d: string)
    requires sep != ""
    ensures JoinWrites(sep, [[a], [b], [c], [d]]) == [a, sep, b, sep, c, sep, d]
  {
    var i1, i2, i3, i4 := [[a]], [[a], [b]], [[a], [b], [c]], [[a], [b], [c], [d]];
    assert JoinWrites(sep, i2) == [a] + [sep] + [b] by {
      assert i2[..1] == i1;
    }
    assert JoinWrites(sep, i3) == [a] + [sep] + [b] + [sep] + [c] by {
      assert i3[..2] == i2;
    }
    assert JoinWrites(sep, i4) == [a] + [sep] + [b] + [sep] + [c] + [sep] + [d] by {
      assert i4[..3] == i3;
    }
  }

  // ---------------------------------------------------------------------------
  // `join!` and `__join!`

  /** `__join!`: `pieces` are the `concat!` parts of the format string so far
      and `args` the arguments so far. Each expression but the last adds
      `s, sep` to the format string and itself to the arguments; the last adds
      `s` and itself. */
  function JoinArgs<E>(pieces: seq<string>, args: seq<E>, sep: string, es: seq<E>, s: string): (r: (seq<string>, seq<E>))
    requires |es| >= 1
    ensures r.1 == args + es
    ensures |r.0| == |pieces| + 2 * |es| - 1 && r.0[..|pieces|] == pieces
    ensures forall i :: 0 <= i < |es| ==> r.0[|pieces| + 2 * i] == s
    ensures forall i :: 0 <= i < |es| - 1 ==> r.0[|pieces| + 2 * i + 1] == sep
    decreases |es|
  {
    if |es| == 1 then (pieces + [s], args + es)
    else
      var p1 := pieces + [s, sep];
      var r := JoinArgs(p1, args + [es[0]], sep, es[1..], s);
      assert r.0[|pieces|] == p1[|pieces|] && r.0[|pieces| + 1] == p1[|pieces| + 1];
      forall i | 1 <= i < |es|
        ensures r.0[|pieces| + 2 * i] == s
        ensures i < |es| - 1 ==> r.0[|pieces| + 2 * i + 1] == sep
      {
        assert |pieces| + 2 * i == |p1| + 2 * (i - 1);
      }
      assert args + [es[0]] + es[1..] == args + es;
      r
  }

  /** The `format_args!` call `join!` expands to. */
  datatype JoinCall<E> = JoinCall(byValue: bool, format: string, args: seq<E>)

  /** `join!([move] sep; e1, …, en [; s])`; at least one expression is
      required, otherwise no rule matches. */
  function JoinMacro<E>(byValue: bool, sep: string, es: seq<E>, spec: Option<string>): (r: Option<JoinCall<E>>)
    ensures r.Some? <==> |es| >= 1
    ensures r.Some? ==> r.value.byValue == byValue && r.value.args == es
    ensures r.Some? ==>
      r.value.format == Text(JoinWrites(sep, Copies(if spec.Some? then spec.value else "{}", |es|)))
  {
    if |es| == 0 then None
    else
      var s := if spec.Some? then spec.value else "{}";
      var (pieces, args) := JoinArgs([], [], sep, es, s);
      JoinArgsFormat([], [], sep, es, s);
      assert [] + es == es && Text([]) == "";
      Some(JoinCall(byValue, Text(pieces), args))
  }

  /** `n` items that each display as the one write `s`. */
  function Copies(s: string, n: nat): (r: seq<seq<string>>)
    ensures |r| == n && forall i :: 0 <= i < n ==> r[i] == [s]
  {
    seq(n, _ => [s])
  }

  /** `s` joined by `sep`, one more time. */
  lemma TextCopies(sep: string, s: string, n: nat)
    requires n >= 1
    ensures Text(JoinWrites(sep, Copies(s, n)))
         == s + (if n == 1 then "" else sep + Text(JoinWrites(sep, Copies(s, n - 1))))
  {
    var rest := JoinWrites(sep, Copies(s, n - 1));
    assert Copies(s, n) == [[s]] + Copies(s, n - 1);
    JoinWritesCons(sep, [s], Copies(s, n - 1));
    if n > 1 {
      TextConcat([s], SepWrites(sep) + rest);
      TextConcat(SepWrites(sep), rest);
      assert Text(SepWrites(sep)) == sep;
    }
  }

  /** The format string `__join!` builds is `s` joined by `sep`, one `s` per
      expression. */
  lemma {:induction false} JoinArgsFormat<E>(pieces: seq<string>, args: seq<E>, sep: string, es: seq<E>, s: string)
    requires |es| >= 1
    ensures Text(JoinArgs(pieces, args, sep, es, s).0) == Text(pieces) + Text(JoinWrites(sep, Copies(s, |es|)))
    decreases |es|
  {
    var n := |es|;
    if n == 1 {
      TextCopies(sep, s, n);
      TextConcat(pieces, [s]);
    } else {
      var pieces' := pieces + [s, sep];
      var x := Text(JoinWrites(sep, Copies(s, n - 1)));
      assert Text(JoinArgs(pieces, args, sep, es, s).0) == Text(pieces') + x by {
        JoinArgsFormat(pieces', args + [es[0]], sep, es[1..], s);
      }
      assert Text(pieces') == Text(pieces) + (s + sep) by {
        TextPair(s, sep);
        TextConcat(pieces, [s, sep]);
      }
      assert Text(JoinWrites(sep, Copies(s, n))) == s + (sep + x) by {
        TextCopies(sep, s, n);
      }
    }
  }

  lemma TextPair(a: string, b: string)
    ensures Text([a, b]) == a + b
  {
    assert [a, b][1..] == [b];
  }

  /** `join!("--"; 1, 2.5, true)` formats its three arguments, in order, with
      the pieces `"{}", "--", "{}", "--", "{}"`. */
  lemma ThreeArgsExample<E>(a: E, b: E, c: E)
    ensures JoinArgs([], [], "--", [a, b, c], "{}") == (["{}", "--", "{}", "--", "{}"], [a, b, c])
  {
    assert [a, b, c][1..] == [b, c] && [b, c][1..] == [c];
    var p1, p2 := [] + ["{}", "--"], [] + ["{}", "--"] + ["{}", "--"];
    assert JoinArgs([], [], "--", [a, b, c], "{}") == JoinArgs(p1, [] + [a], "--", [b, c], "{}");
    assert JoinArgs(p1, [] + [a], "--", [b, c], "{}") == JoinArgs(p2, [] + [a] + [b], "--", [c], "{}");
    assert JoinArgs(p2, [] + [a] + [b], "--", [c], "{}") == (p2 + ["{}"], [] + [a] + [b] + [c]);
    assert p2 + ["{}"] == ["{}", "--", "{}", "--", "{}"];
    assert [] + [a] + [b] + [c] == [a, b, c];
  }
}

=== FILE: plans.dfy ===
/** The write plan a template compiles to, and what rendering it does.

    The `fmt!` macro expands a template into the body of a closure that runs
    against a `Formatter`: `write_str` of literal text, `write_fmt` of
    `format_args!`, `let` statements, the escape-hatch code, and `if` / `match`
    / `for` statements whose bodies are again such closure bodies. A `Plan` is
    that generated code as data. Expressions, patterns and the escape-hatch code
    stay opaque token lists; their meaning belongs to a `Host`. */
module Plans {
  import opened Wrappers
  import opened Tokens
  import opened Sink

  /** Escape-hatch code: a block, whose bindings end with it, or one statement
      ended by `;`, whose bindings (`|_| let name = …;`) stay visible to the
      rest of the template. */
  datatype Code = Block(tts: seq<Tok>) | Stmt(tts: seq<Tok>)

  /** The test of one `if` or `else if`: a boolean expression or `let p = e`. */
  datatype Cond = Bool(expr: seq<Tok>) | IfLet(pat: seq<Tok>, expr: seq<Tok>)

  datatype Node =
    | WriteStr(text: string)                                // `write_str`
    | WriteFmt(fmt: string, args: seq<seq<Tok>>)            // `write_fmt(format_args!(fmt, args…))`
    | Let(pat: seq<Tok>, init: seq<Tok>)                    // `let pat = init;`
    | Escape(alias: seq<Tok>, code: Code)                   // `let alias = &mut *f; code`
    | If(branches: seq<Branch>, otherwise: Else)            // `if … else if … else …`
    | Match(scrutinee: seq<Tok>, arms: seq<Arm>)            // `match scrutinee { arms }`
    | For(pat: seq<Tok>, iter: seq<Tok>, body: seq<Node>)   // `for pat in iter { body }`

  datatype Branch = Branch(cond: Cond, body: seq<Node>)

  /** How an if chain ends: without `else`, or with an `else` block. */
  datatype Else = NoElse | ElseBlock(body: seq<Node>)

  datatype Arm = Arm(pat: seq<Tok>, guard: Option<seq<Tok>>, body: seq<Node>)

  type Plan = seq<Node>

  /** What the host language does with the opaque parts, in a scope `S` of
      visible bindings:
      - `bind`: the scope after `let pat = init;`
      - `truth`: the value of a boolean expression
      - `test`: a refutable pattern test (`if let`, a match arm), with the
        scope the pattern's bindings extend it to
      - `items`: for `for pat in iter`, the scope of each iteration in order
      - `display`: the text `format_args!(fmt, args…)` produces
      - `alias`: the scope after `let alias = &mut *f;`, which binds the
        escape hatch's name for the formatter
      - `escape`: the scope after escape-hatch code and the writes it makes */
  datatype Host<!S> = Host(
    bind: (S, seq<Tok>, seq<Tok>) -> S,
    truth: (S, seq<Tok>) -> bool,
    test: (S, seq<Tok>, seq<Tok>) -> Option<S>,
    items: (S, seq<Tok>, seq<Tok>) -> seq<S>,
    display: (S, string, seq<seq<Tok>>) -> string,
    alias: (S, seq<Tok>) -> S,
    escape: (S, Code) -> (S, seq<string>))

  /** What the fragment parsers of the generated code demand: every
      `format_args!` has one or two expression arguments, every `let` binds a
      pattern to an expression, the escape hatch names its formatter, every
      test, scrutinee and iterator is an expression, an `if` has at least one
      branch, and the same holds of every nested body. */
  predicate WellFormed(p: Plan)
    decreases p
  {
    forall i :: 0 <= i < |p| ==> WellFormedNode(p[i])
  }

  predicate WellFormedNode(n: Node)
    decreases n
  {
    match n
    case WriteStr(_) => true
    case WriteFmt(_, args) => 1 <= |args| <= 2 && forall a :: a in args ==> IsExpr(a)
    case Let(p, e) => |p| > 0 && IsExpr(e)
    case Escape(a, c) => |a| > 0 && (c.Stmt? ==> |c.tts| > 0)
    case If(bs, els) =>
      && |bs| > 0
      && (forall b :: b in bs ==> WellFormedBranch(b))
      && (els.ElseBlock? ==> WellFormed(els.body))
    case Match(e, arms) => IsExpr(e) && forall a :: a in arms ==> WellFormedArm(a)
    case For(p, e, b) => |p| > 0 && IsExpr(e) && WellFormed(b)
  }

  predicate WellFormedBranch(b: Branch)
    decreases b
  {
    IsExpr(b.cond.expr) && (b.cond.IfLet? ==> |b.cond.pat| > 0) && WellFormed(b.body)
  }

  predicate WellFormedArm(a: Arm)
    decreases a
  {
    |a.pat| > 0 && (a.guard.Some? ==> IsExpr(a.guard.value)) && WellFormed(a.body)
  }

  /** Well-formedness is per statement: it holds of `a + b` exactly when it
      holds of `a` and of `b`. */
  /** A well-formed statement in front of a well-formed plan. */
  lemma WellFormedCons(n: Node, rest: Plan)
    requires WellFormedNode(n) && WellFormed(rest)
    ensures WellFormed([n] + rest) && |[n] + rest| > 0 && ([n] + rest)[0] == n
  {
    WellFormedConcat([n], rest);
  }

  lemma WellFormedConcat(a: Plan, b: Plan)
    ensures WellFormed(a + b) <==> WellFormed(a) && WellFormed(b)
  {
    if WellFormed(a + b) {
      forall i | 0 <= i < |a|
        ensures WellFormedNode(a[i])
      {
        assert (a + b)[i] == a[i];
      }
      forall i | 0 <= i < |b|
        ensures WellFormedNode(b[i])
      {
        assert (a + b)[|a| + i] == b[i];
      }
    }
  }

  /** The scope a statement leaves to the statements after it. Only `let` and
      the escape hatch bind: the alias stays bound after the escape hatch,
      and so do the bindings of a statement, but not those of a block. The
      bodies of `if`, `match` and `for` are blocks: nothing bound inside them
      reaches the rest of the template. */
  function Binds<S>(h: Host<S>, n: Node, sc: S): S {
    match n
    case Let(p, e) => h.bind(sc, p, e)
    case Escape(a, c) => if c.Block? then h.alias(sc, a) else h.escape(h.alias(sc, a), c).0
    case _ => sc
  }

  /** The scope after the statements of `p`, taking only their bindings. */
  function Bound<S>(h: Host<S>, p: Plan, sc: S): S
    decreases |p|
  {
    if p == [] then sc else Bound(h, p[1..], Binds(h, p[0], sc))
  }

  /** Does a branch's test pass, and in which scope does its body run? */
  function Holds<S>(h: Host<S>, sc: S, c: Cond): Option<S> {
    match c
    case Bool(e) => if h.truth(sc, e) then Some(sc) else None
    case IfLet(p, e) => h.test(sc, p, e)
  }

  /** The branch an `if … else if …` chain takes: the least index whose test
      passes, with the scope of its body; `None` when no test passes. */
  function FirstBranch<S>(h: Host<S>, sc: S, bs: seq<Branch>): (r: Option<(nat, S)>)
    ensures r.Some? ==>
      && r.value.0 < |bs|
      && Holds(h, sc, bs[r.value.0].cond) == Some(r.value.1)
      && forall j :: 0 <= j < r.value.0 ==> Holds(h, sc, bs[j].cond).None?
    ensures r.None? ==> forall j :: 0 <= j < |bs| ==> Holds(h, sc, bs[j].cond).None?
  {
    if bs == [] then None
    else match Holds(h, sc, bs[0].cond)
      case Some(sc1) => Some((0, sc1))
      case None =>
        match FirstBranch(h, sc, bs[1..])
        case None => None
        case Some((i, sc1)) => Some((i + 1, sc1))
  }

  /** Does an arm accept the scrutinee: its pattern matches and, if it has a
      guard, the guard holds in the pattern's scope? */
  function ArmAccepts<S>(h: Host<S>, sc: S, e: seq<Tok>, a: Arm): Option<S> {
    match h.test(sc, a.pat, e)
    case None => None
    case Some(sc1) =>
      match a.guard
      case None => Some(sc1)
      case Some(g) => if h.truth(sc1, g) then Some(sc1) else None
  }

  /** The arm a `match` takes: the least index that accepts the scrutinee. */
  function FirstArm<S>(h: Host<S>, sc: S, e: seq<Tok>, arms: seq<Arm>): (r: Option<(nat, S)>)
    ensures r.Some? ==>
      && r.value.0 < |arms|
      && ArmAccepts(h, sc, e, arms[r.value.0]) == Some(r.value.1)
      && forall j :: 0 <= j < r.value.0 ==> ArmAccepts(h, sc, e, arms[j]).None?
    ensures r.None? ==> forall j :: 0 <= j < |arms| ==> ArmAccepts(h, sc, e, arms[j]).None?
  {
    if arms == [] then None
    else match ArmAccepts(h, sc, e, arms[0])
      case Some(sc1) => Some((0, sc1))
      case None =>
        match FirstArm(h, sc, e, arms[1..])
        case None => None
        case Some((i, sc1)) => Some((i + 1, sc1))
  }

  // ---------------------------------------------------------------------------
  // The writes a plan attempts, ignoring the sink: the reference semantics.

  /** The scope after `p` and the writes `p` attempts, in order. */
  function EmitPlan<S>(h: Host<S>, p: Plan, sc: S): (r: (S, seq<string>))
    ensures r.0 == Bound(h, p, sc)
    decreases p, 0
  {
    if p == [] then (sc, [])
    else
      var (sc1, w1) := EmitNode(h, p[0], sc);
      var (sc2, w2) := EmitPlan(h, p[1..], sc1);
      (sc2, w1 + w2)
  }

  function EmitNode<S>(h: Host<S>, n: Node, sc: S): (r: (S, seq<string>))
    ensures r.0 == Binds(h, n, sc)
    decreases n, 0
  {
    match n
    case WriteStr(s) => (sc, [s])
    case WriteFmt(f, args) => (sc, [h.display(sc, f, args)])
    case Let(p, e) => (h.bind(sc, p, e), [])
    case Escape(a, c) =>
      var sc0 := h.alias(sc, a);
      var (sc1, ws) := h.escape(sc0, c);
      (if c.Block? then sc0 else sc1, ws)
    case If(bs, els) =>
      (match FirstBranch(h, sc, bs)
      case Some((i, sc1)) => (sc, EmitPlan(h, bs[i].body, sc1).1)
      case None =>
        if els.ElseBlock? then (sc, EmitPlan(h, els.body, sc).1) else (sc, []))
    case Match(e, arms) =>
      (match FirstArm(h, sc, e, arms)
       case Some((i, sc1)) => (sc, EmitPlan(h, arms[i].body, sc1).1)
       case None => (sc, []))
    case For(p, e, b) => (sc, EmitLoop(h, b, h.items(sc, p, e)))
  }

  /** The writes of a loop body run once in each iteration scope. */
  function EmitLoop<S>(h: Host<S>, body: Plan, scopes: seq<S>): seq<string>
    decreases body, 1, |scopes|
  {
    if scopes == [] then []
    else EmitPlan(h, body, scopes[0]).1 + EmitLoop(h, body, scopes[1..])
  }

  // ---------------------------------------------------------------------------
  // Rendering against a sink, returning on the first failed write (`?`).

  /** Rendering only appends to the sink, and once a write has failed it
      writes nothing more. */
  function RenderPlan<S>(h: Host<S>, accept: Accept, p: Plan, sc: S, st: Stream): (r: (S, Stream))
    ensures st.failed ==> r.1 == st
    ensures st.written <= r.1.written
    decreases p, 0
  {
    if p == [] then (sc, st)
    else
      var (sc1, st1) := RenderNode(h, accept, p[0], sc, st);
      if st1.failed then (sc1, st1)
      else RenderPlan(h, accept, p[1..], sc1, st1)
  }

  function RenderNode<S>(h: Host<S>, accept: Accept, n: Node, sc: S, st: Stream): (r: (S, Stream))
    ensures st.failed ==> r.1 == st
    ensures st.written <= r.1.written
    decreases n, 0
  {
    match n
    case WriteStr(s) => (sc, Put(accept, st, s))
    case WriteFmt(f, args) => (sc, Put(accept, st, h.display(sc, f, args)))
    case Let(p, e) => (h.bind(sc, p, e), st)
    case Escape(a, c) =>
      var sc0 := h.alias(sc, a);
      var (sc1, ws) := h.escape(sc0, c);
      (if c.Block? then sc0 else sc1, Deliver(accept, st, ws))
    case If(bs, els) =>
      (match FirstBranch(h, sc, bs)
      case Some((i, sc1)) => (sc, RenderPlan(h, accept, bs[i].body, sc1, st).1)
      case None =>
        if els.ElseBlock? then (sc, RenderPlan(h, accept, els.body, sc, st).1) else (sc, st))
    case Match(e, arms) =>
      (match FirstArm(h, sc, e, arms)
       case Some((i, sc1)) => (sc, RenderPlan(h, accept, arms[i].body, sc1, st).1)
       case None => (sc, st))
    case For(p, e, b) => (sc, RenderLoop(h, accept, b, h.items(sc, p, e), st))
  }

  function RenderLoop<S>(h: Host<S>, accept: Accept, body: Plan, scopes: seq<S>, st: Stream): (r: Stream)
    ensures st.failed ==> r == st
    ensures st.written <= r.written
    decreases body, 1, |scopes|
  {
    if scopes == [] then st
    else
      var st1 := RenderPlan(h, accept, body, scopes[0], st).1;
      if st1.failed then st1
      else RenderLoop(h, accept, body, scopes[1..], st1)
  }
}

=== FILE: render_props.dfy ===
/** What rendering a write plan does, stated against the reference semantics
    `EmitPlan`: rendering attempts exactly the writes the plan emits, in order,
    and stops at the first write the sink refuses. */
module RenderProps {
  import opened Wrappers
  import opened Tokens
  import opened Sink
  import opened Plans

  /** Rendering with `?` on every write is delivering the plan's writes to the
      sink: the sink keeps the longest accepted prefix, nothing is written after
      the first failure, and a rendering that did not fail leaves the scope the
      plan leaves. */
  lemma {:induction false} RenderPlanDelivers<S>(h: Host<S>, accept: Accept, p: Plan, sc: S, st: Stream)
    ensures RenderPlan(h, accept, p, sc, st).1 == Deliver(accept, st, EmitPlan(h, p, sc).1)
    ensures !RenderPlan(h, accept, p, sc, st).1.failed ==>
      RenderPlan(h, accept, p, sc, st).0 == EmitPlan(h, p, sc).0
    decreases p, 0
  {
    if p != [] {
      var (sc1, st1) := RenderNode(h, accept, p[0], sc, st);
      var (e1, w1) := EmitNode(h, p[0], sc);
      RenderNodeDelivers(h, accept, p[0], sc, st);
      var w2 := EmitPlan(h, p[1..], e1).1;
      DeliverConcat(accept, st, w1, w2);
      if !st1.failed {
        RenderPlanDelivers(h, accept, p[1..], sc1, st1);
      }
    }
  }

  lemma {:induction false} RenderNodeDelivers<S>(h: Host<S>, accept: Accept, n: Node, sc: S, st: Stream)
    ensures RenderNode(h, accept, n, sc, st).1 == Deliver(accept, st, EmitNode(h, n, sc).1)
    ensures !RenderNode(h, accept, n, sc, st).1.failed ==>
      RenderNode(h, accept, n, sc, st).0 == EmitNode(h, n, sc).0
    decreases n, 0
  {
    match n
    case WriteStr(s) =>
      assert Deliver(accept, Put(accept, st, s), []) == Put(accept, st, s);
    case WriteFmt(f, args) =>
      var s := h.display(sc, f, args);
      assert Deliver(accept, Put(accept, st, s), []) == Put(accept, st, s);
    case Let(_, _) =>
    case Escape(_, _) =>
    case If(bs, els) =>
      match FirstBranch(h, sc, bs) {
        case Some((i, sc1)) => RenderPlanDelivers(h, accept, bs[i].body, sc1, st);
        case None =>
          if els.ElseBlock? {
            RenderPlanDelivers(h, accept, els.body, sc, st);
          }
      }
    case Match(e, arms) =>
      match FirstArm(h, sc, e, arms) {
        case Some((i, sc1)) => RenderPlanDelivers(h, accept, arms[i].body, sc1, st);
        case None =>
      }
    case For(p, e, b) =>
      RenderLoopDelivers(h, accept, b, h.items(sc, p, e), st);
  }

  lemma {:induction false} RenderLoopDelivers<S>(h: Host<S>, accept: Accept, body: Plan, scopes: seq<S>, st: Stream)
    ensures RenderLoop(h, accept, body, scopes, st) == Deliver(accept, st, EmitLoop(h, body, scopes))
    decreases body, 1, |scopes|
  {
    if scopes != [] {
      var st1 := RenderPlan(h, accept, body, scopes[0], st).1;
      RenderPlanDelivers(h, accept, body, scopes[0], st);
      DeliverConcat(accept, st, EmitPlan(h, body, scopes[0]).1, EmitLoop(h, body, scopes[1..]));
      if !st1.failed {
        RenderLoopDelivers(h, accept, body, scopes[1..], st1);
      }
    }
  }

  /** Running `a + b` is running `a`, then `b` in the scope `a` leaves. */
  lemma {:induction false} EmitConcat<S>(h: Host<S>, a: Plan, b: Plan, sc: S)
    ensures EmitPlan(h, a + b, sc).1 == EmitPlan(h, a, sc).1 + EmitPlan(h, b, EmitPlan(h, a, sc).0).1
    ensures EmitPlan(h, a + b, sc).0 == EmitPlan(h, b, EmitPlan(h, a, sc).0).0
  {
    if a == [] {
      assert a + b == b;
    } else {
      assert (a + b)[0] == a[0];
      assert (a + b)[1..] == a[1..] + b;
      EmitConcat(h, a[1..], b, EmitNode(h, a[0], sc).0);
    }
  }

  /** A `for` loop runs its body once per item, in iteration order: nothing for
      no items, the body's writes for one item, and the writes of two runs of
      items one after the other. */
  lemma {:induction false} LoopOncePerItem<S>(h: Host<S>, body: Plan, xs: seq<S>, ys: seq<S>)
    ensures EmitLoop(h, body, []) == []
    ensures |xs| == 1 ==> EmitLoop(h, body, xs) == EmitPlan(h, body, xs[0]).1
    ensures EmitLoop(h, body, xs + ys) == EmitLoop(h, body, xs) + EmitLoop(h, body, ys)
    decreases |xs|
  {
    if xs == [] {
      assert xs + ys == ys;
    } else {
      assert (xs + ys)[0] == xs[0];
      assert (xs + ys)[1..] == xs[1..] + ys;
      LoopOncePerItem(h, body, xs[1..], ys);
      if |xs| == 1 {
        assert EmitLoop(h, body, xs[1..]) == [];
      }
    }
  }

  /** An if chain renders the body of its first branch whose test passes, and
      no other branch. */
  lemma IfTakesFirstPassing<S>(h: Host<S>, bs: seq<Branch>, els: Else, sc: S, i: nat)
    requires i < |bs| && Holds(h, sc, bs[i].cond).Some?
    requires forall j :: 0 <= j < i ==> Holds(h, sc, bs[j].cond).None?
    ensures EmitNode(h, If(bs, els), sc)
         == (sc, EmitPlan(h, bs[i].body, Holds(h, sc, bs[i].cond).value).1)
  {
    var r := FirstBranch(h, sc, bs);
    assert r.Some? && r.value.0 == i;
  }

  /** When no test passes, the chain renders its `else` block, or nothing. */
  lemma IfOtherwise<S>(h: Host<S>, bs: seq<Branch>, els: Else, sc: S)
    requires forall j :: 0 <= j < |bs| ==> Holds(h, sc, bs[j].cond).None?
    ensures EmitNode(h, If(bs, els), sc)
         == (sc, if els.ElseBlock? then EmitPlan(h, els.body, sc).1 else [])
  {
  }

  /** A match renders the body of its first arm that accepts the scrutinee. */
  lemma MatchTakesFirstAccepting<S>(h: Host<S>, e: seq<Tok>, arms: seq<Arm>, sc: S, i: nat)
    requires i < |arms| && ArmAccepts(h, sc, e, arms[i]).Some?
    requires forall j :: 0 <= j < i ==> ArmAccepts(h, sc, e, arms[j]).None?
    ensures EmitNode(h, Match(e, arms), sc)
         == (sc, EmitPlan(h, arms[i].body, ArmAccepts(h, sc, e, arms[i]).value).1)
  {
    var r := FirstArm(h, sc, e, arms);
    assert r.Some? && r.value.0 == i;
  }
}

=== FILE: scan.dfy ===
/** The expression-boundary scanners of the template compiler.

    An expression embedded in a template has no terminator of its own. Where a
    block must follow it (`if`, `match`, `for`), `__with_parens` collects tokens
    until the next token is a brace group; where a comma ends it (a match arm
    written without braces), `__until_comma` collects tokens until a top-level
    comma. Both look only at the top level, so a brace or comma inside a
    parenthesised or bracketed group never ends the expression. */
module Scan {
  import opened Wrappers
  import opened Tokens

  /** Why a template does not compile. */
  datatype Error =
    | MissingBlock(expr: seq<Tok>)  // "missing block after expression"
    | NoRule(at: seq<Tok>)          // no macro rule accepts the tokens

  /** `expr { body } tail`: an expression, its block, and what follows. */
  datatype Split = Split(expr: seq<Tok>, body: seq<Tok>, tail: seq<Tok>)

  /** `s` is what `__with_parens` yields for the pending expression `acc`
      and the input `ts`: the expression is `acc` followed by every token of
      `ts` before the FIRST brace group, the body is that group's content and
      the tail is what follows it. */
  ghost predicate SplitsAt(acc: seq<Tok>, ts: seq<Tok>, s: Split) {
    var k := |s.expr| - |acc|;
    && |acc| <= |s.expr|
    && k < |ts|
    && s.expr == acc + ts[..k]
    && ts[k] == Brace(s.body)
    && s.tail == ts[k + 1..]
    && (forall j :: 0 <= j < k ==> !ts[j].Brace?)
  }

  /** `__with_parens`: move tokens one at a time from `ts` onto the pending
      expression `acc` until the next token is a brace group.

      It succeeds exactly when `ts` holds a top-level brace group, and then
      stops at the FIRST one; otherwise it fails with "missing block after
      expression" naming everything collected. */
  function WithParens(acc: seq<Tok>, ts: seq<Tok>): (r: Result<Split, Error>)
    ensures r.Ok? <==> exists i :: 0 <= i < |ts| && ts[i].Brace?
    ensures r.Ok? ==> SplitsAt(acc, ts, r.value)
    ensures r.Err? ==> r.error == MissingBlock(acc + ts)
    decreases |ts|
  {
    if ts == [] then
      assert acc + ts == acc;
      Err(MissingBlock(acc))
    else if ts[0].Brace? then
      assert acc + ts[..0] == acc;
      Ok(Split(acc, ts[0].tts, ts[1..]))
    else
      var r := WithParens(acc + [ts[0]], ts[1..]);
      BraceInTail(ts);
      if r.Ok? then
        SplitsOneLater(acc, ts, r.value);
        r
      else
        assert acc + ts == acc + [ts[0]] + ts[1..];
        r
  }

  /** Dropping a leading non-brace token keeps "holds a brace group". */
  lemma BraceInTail(ts: seq<Tok>)
    requires ts != [] && !ts[0].Brace?
    ensures (exists i :: 0 <= i < |ts[1..]| && ts[1..][i].Brace?)
        <==> (exists i :: 0 <= i < |ts| && ts[i].Brace?)
  {
    if exists i :: 0 <= i < |ts| && ts[i].Brace? {
      var i :| 0 <= i < |ts| && ts[i].Brace?;
      assert ts[1..][i - 1].Brace?;
    }
  }

  /** Moving a leading non-brace token onto the expression keeps the split. */
  lemma SplitsOneLater(acc: seq<Tok>, ts: seq<Tok>, s: Split)
    requires ts != [] && !ts[0].Brace?
    requires SplitsAt(acc + [ts[0]], ts[1..], s)
    ensures SplitsAt(acc, ts, s)
  {
    var k := |s.expr| - |acc|;
    assert acc + [ts[0]] + ts[1..][..k - 1] == acc + ts[..k];
    assert forall j :: 1 <= j < k ==> ts[j] == ts[1..][j - 1];
  }

  /** `__until_comma`: move tokens from `ts` onto the arm body `acc` until a
      top-level comma or the end of the input; the comma stays with the rest.

      Returns the body and the rest: they put `acc + ts` back together, the
      body gained no comma, and the rest is empty or starts with the comma. */
  function UntilComma(acc: seq<Tok>, ts: seq<Tok>): (r: (seq<Tok>, seq<Tok>))
    ensures acc + ts == r.0 + r.1
    ensures |acc| <= |r.0| && r.0[..|acc|] == acc
    ensures forall j :: |acc| <= j < |r.0| ==> r.0[j] != Comma
    ensures r.1 == [] || r.1[0] == Comma
    decreases |ts|
  {
    if ts == [] then (acc, [])
    else if ts[0] == Comma then (acc, ts)
    else
      var r := UntilComma(acc + [ts[0]], ts[1..]);
      assert acc + ts == acc + [ts[0]] + ts[1..];
      assert r.0[..|acc|] == (r.0[..|acc| + 1])[..|acc|];
      r
  }
}

=== FILE: sink.dfy ===
/** The output sink a rendering writes to (a `core::fmt::Formatter`).

    Every write either completes or fails; whether it fails may depend on
    everything the sink has accepted so far (a full buffer, a closed pipe). A
    failed write ends the rendering: `?` returns the error and nothing further is
    written. */
module Sink {

  /** Does the sink accept `next`, having accepted `written` so far? */
  type Accept = (seq<string>, string) -> bool

  /** What a rendering has done to the sink: the writes it accepted, and whether
      a write has failed. */
  datatype Stream = Stream(written: seq<string>, failed: bool)

  /** A sink that never fails (a `String` being built by `to_string`). */
  ghost predicate AcceptsAll(accept: Accept) {
    forall w, s :: accept(w, s)
  }

  /** One `write_str`: a no-op once the stream has failed. */
  function Put(accept: Accept, st: Stream, s: string): (r: Stream)
    ensures st.failed ==> r == st
    ensures !st.failed && accept(st.written, s) ==> r == Stream(st.written + [s], false)
    ensures !st.failed && !accept(st.written, s) ==> r == Stream(st.written, true)
  {
    if st.failed then st
    else if accept(st.written, s) then Stream(st.written + [s], false)
    else Stream(st.written, true)
  }

  /** `r` is what attempting the writes `ws` on the live stream with
      `written` so far can leave: the sink keeps exactly a prefix `ws[..k]`,
      every one of those was accepted, and the stream failed iff some write
      was refused, which is then `ws[k]`. */
  ghost predicate KeepsPrefix(accept: Accept, written: seq<string>, ws: seq<string>, r: Stream) {
    var k := |r.written| - |written|;
    && |written| <= |r.written| <= |written| + |ws|
    && r.written == written + ws[..k]
    && (forall j :: 0 <= j < k ==> accept(written + ws[..j], ws[j]))
    && (r.failed <==> k < |ws|)
    && (r.failed ==> !accept(r.written, ws[k]))
  }

  /** Attempt the writes `ws` in order, stopping at the first failure. */
  function Deliver(accept: Accept, st: Stream, ws: seq<string>): (r: Stream)
    ensures st.failed ==> r == st
    ensures !st.failed ==> KeepsPrefix(accept, st.written, ws, r)
    decreases |ws|
  {
    if ws == [] || st.failed then
      assert st.written + ws[..0] == st.written;
      st
    else
      var st1 := Put(accept, st, ws[0]);
      if st1.failed then
        assert st.written + ws[..0] == st.written;
        st1
      else
        var r := Deliver(accept, st1, ws[1..]);
        KeepsOneMore(accept, st.written, ws, r);
        r
  }

  /** An accepted first write, then a prefix of the rest, is a prefix. */
  lemma KeepsOneMore(accept: Accept, written: seq<string>, ws: seq<string>, r: Stream)
    requires ws != [] && accept(written, ws[0])
    requires KeepsPrefix(accept, written + [ws[0]], ws[1..], r)
    ensures KeepsPrefix(accept, written, ws, r)
  {
    var k := |r.written| - |written|;
    assert written + [ws[0]] + ws[1..][..k - 1] == written + ws[..k];
    forall j | 0 <= j < k
      ensures accept(written + ws[..j], ws[j])
    {
      if j == 0 {
        assert written + ws[..0] == written;
      } else {
        assert written + [ws[0]] + ws[1..][..j - 1] == written + ws[..j];
        assert ws[1..][j - 1] == ws[j];
      }
    }
    if r.failed {
      assert ws[1..][k - 1] == ws[k];
    }
  }

  /** Delivering `a + b` is delivering `a`, then `b` to what remains. */
  lemma {:induction false} DeliverConcat(accept: Accept, st: Stream, a: seq<string>, b: seq<string>)
    ensures Deliver(accept, st, a + b) == Deliver(accept, Deliver(accept, st, a), b)
    decreases |a|
  {
    if a == [] {
      assert a + b == b;
    } else if !st.failed {
      assert (a + b)[1..] == a[1..] + b;
      var st1 := Put(accept, st, a[0]);
      if !st1.failed {
        DeliverConcat(accept, st1, a[1..], b);
      }
    }
  }

  /** A sink that never fails keeps every write. */
  lemma {:induction false} DeliverAll(accept: Accept, st: Stream, ws: seq<string>)
    requires AcceptsAll(accept) && !st.failed
    ensures Deliver(accept, st, ws) == Stream(st.written + ws, false)
    decreases |ws|
  {
    if ws != [] {
      assert accept(st.written, ws[0]);
      DeliverAll(accept, Stream(st.written + [ws[0]], false), ws[1..]);
      assert st.written + [ws[0]] + ws[1..] == st.written + ws;
    }
  }

  /** The text a sequence of writes produces. */
  function Text(ws: seq<string>): (r: string)
    ensures |ws| == 1 ==> r == ws[0]
  {
    if ws == [] then "" else ws[0] + Text(ws[1..])
  }

  lemma {:induction false} TextConcat(a: seq<string>, b: seq<string>)
    ensures Text(a + b) == Text(a) + Text(b)
  {
    if a != [] {
      assert (a + b)[0] == a[0];
      assert (a + b)[1..] == a[1..] + b;
      TextConcat(a[1..], b);
      assert Text(a + b) == a[0] + (Text(a[1..]) + Text(b));
    } else {
      assert a + b == b;
    }
  }
}

=== FILE: template.dfy ===
/** The template compiler: `fmt!`, `__fmt`, `__fmt_format` / `__fmt_expr`,
    `__fmt_if` and `__fmt_match`, as functions from token lists to write plans.

    Each `macro_rules!` arm is a rewrite on token lists; the arms are tried in
    order and the first that matches wins. The functions below take the same
    decisions in the same order. Rust's fragment parsers (`$e:expr`, `$p:pat`,
    `$s:stmt`) are replaced by their structural delimiters: a pattern runs up to
    the token that must follow it, an expression is a non-empty token list with
    no top-level comma or semicolon (`IsExpr`). */
module Template {
  import opened Wrappers
  import opened Tokens
  import opened Scan
  import opened Plans

  /** A compiled `fmt!` invocation; `byValue` records `fmt!(move …)`. */
  datatype Template = Template(byValue: bool, plan: Plan)

  /** `fmt!`: an optional leading `move`, then the template. The `move`
      only decides how the closure captures; the template after it compiles
      the same either way. */
  function Fmt(ts: seq<Tok>): (r: Result<Template, Error>)
    ensures var body := if |ts| > 0 && ts[0] == Ident("move") then ts[1..] else ts;
      && (r.Ok? <==> Compile(body).Ok?)
      && (r.Ok? ==> r.value == Template(|ts| > 0 && ts[0] == Ident("move"), Compile(body).value))
      && (r.Err? ==> r.error == Compile(body).error)
  {
    if |ts| > 0 && ts[0] == Ident("move") then
      var p :- Compile(ts[1..]);
      Ok(Template(true, p))
    else
      var p :- Compile(ts);
      Ok(Template(false, p))
  }

  predicate StartsWith(ts: seq<Tok>, t: Tok) {
    |ts| > 0 && ts[0] == t
  }

  /** Number of leading literal tokens. */
  function LitRun(ts: seq<Tok>): (n: nat)
    ensures n <= |ts|
    ensures forall j :: 0 <= j < n ==> ts[j].Lit?
    ensures n < |ts| ==> !ts[n].Lit?
  {
    if ts == [] || !ts[0].Lit? then 0 else 1 + LitRun(ts[1..])
  }

  /** `concat!` of literal tokens: their texts in order. */
  function Concat(ts: seq<Tok>): string {
    if ts == [] then ""
    else (if ts[0].Lit? then ts[0].text else "") + Concat(ts[1..])
  }

  /** `__fmt`: compile one template body.

      Literal runs become ONE `write_str` of their concatenation; a brace group
      is an interpolation; `|f| …` is the escape hatch; `let`, `if`, `match` and
      `for` start their constructs; a paren group is compiled in place (the
      batching rule); nothing else is accepted.

      Whatever compiles is well formed: the generated Rust passes the
      fragment parsers at every level of nesting. */
  function Compile(ts: seq<Tok>): (r: Result<Plan, Error>)
    ensures r.Ok? ==> WellFormed(r.value)
    decreases SizeSeq(ts), if StartsWith(ts, Kw(IfKw)) then 4 else 1
  {
    if ts == [] then Ok([])
    else
      SizeSuffix(ts, 1);
      match ts[0]
      case Lit(_) =>
        var n := LitRun(ts);
        SizeSuffix(ts, n);
        var rest :- Compile(ts[n..]);
        WellFormedConcat([WriteStr(Concat(ts[..n]))], rest);
        Ok([WriteStr(Concat(ts[..n]))] + rest)
      case Brace(e) =>
        var w :- Interpolate(e);
        var rest :- Compile(ts[1..]);
        WellFormedConcat([w], rest);
        Ok([w] + rest)
      case Paren(inner) =>
        SizeInterior(ts, 0);
        var first :- Compile(inner);
        var rest :- Compile(ts[1..]);
        WellFormedConcat(first, rest);
        Ok(first + rest)
      case Punct(p) =>
        if p == "|" then CompileEscape(ts[1..]) else Err(NoRule(ts))
      case Kw(_) => CompileKeyword(ts)
      case _ => Err(NoRule(ts))
  }

  /** A statement that starts with a keyword: `if`, `let`, `match` or `for`. */
  function CompileKeyword(ts: seq<Tok>): (r: Result<Plan, Error>)
    requires |ts| > 0 && ts[0].Kw?
    ensures r.Ok? ==> WellFormed(r.value)
    decreases SizeSeq(ts), if ts[0] == Kw(IfKw) then 3 else 0
  {
    SizeSuffix(ts, 1);
    var k := ts[0].kw;
    if k == IfKw then IfChain([], ts)
    else if k == LetKw then CompileLet(ts[1..])
    else if k == MatchKw then CompileMatch(ts[1..])
    else if k == ForKw then CompileFor(ts[1..])
    else Err(NoRule(ts))
  }

  /** `|alias| { block }` or `|alias| statement;` (after the first `|`). */
  function CompileEscape(ts: seq<Tok>): (r: Result<Plan, Error>)
    ensures r.Ok? ==> WellFormed(r.value) && |r.value| > 0 && r.value[0].Escape?
    ensures r.Ok? ==> r.value[0].alias == ts[..Find(ts, {Pipe})]
    decreases SizeSeq(ts), 3
  {
    var i := Find(ts, {Pipe});
    if i == 0 || i == |ts| then Err(NoRule(ts))
    else if i + 1 < |ts| && ts[i + 1].Brace? then EscapeBlock(ts, i)
    else EscapeStmt(ts, i)
  }

  /** `|alias| { block }`: the block is taken as it is. */
  function EscapeBlock(ts: seq<Tok>, i: nat): (r: Result<Plan, Error>)
    requires 0 < i && i + 1 < |ts| && ts[i + 1].Brace?
    ensures r.Ok? ==> WellFormed(r.value) && |r.value| > 0 && r.value[0] == Escape(ts[..i], Block(ts[i + 1].tts))
    decreases SizeSeq(ts), 2
  {
    SizeSuffix(ts, i + 2);
    var tail :- Compile(ts[i + 2..]);
    WellFormedConcat([Escape(ts[..i], Block(ts[i + 1].tts))], tail);
    Ok([Escape(ts[..i], Block(ts[i + 1].tts))] + tail)
  }

  /** `|alias| statement;`: the statement runs to the first top-level `;`. */
  function EscapeStmt(ts: seq<Tok>, i: nat): (r: Result<Plan, Error>)
    requires 0 < i < |ts|
    ensures r.Ok? ==> WellFormed(r.value) && |r.value| > 0 && r.value[0].Escape? && r.value[0].alias == ts[..i]
    ensures r.Ok? ==> r.value[0].code == Stmt(ts[i + 1..][..Find(ts[i + 1..], {Semi})])
    decreases SizeSeq(ts), 2
  {
    var rest := ts[i + 1..];
    var j := Find(rest, {Semi});
    if j == 0 || j == |rest| then Err(NoRule(ts))
    else
      SizeSuffix(ts, i + j + 2);
      assert rest[j + 1..] == ts[i + j + 2..];
      var tail :- Compile(rest[j + 1..]);
      WellFormedCons(Escape(ts[..i], Stmt(rest[..j])), tail);
      Ok([Escape(ts[..i], Stmt(rest[..j]))] + tail)
  }

  /** `let pat = expr;` (after `let`). */
  function CompileLet(ts: seq<Tok>): (r: Result<Plan, Error>)
    ensures r.Ok? ==> WellFormed(r.value) && |r.value| > 0 && r.value[0].Let?
    ensures r.Ok? ==> r.value[0].pat == ts[..Find(ts, {Assign})]
    decreases SizeSeq(ts), 3
  {
    var i := Find(ts, {Assign});
    if i == 0 || i == |ts| then Err(NoRule(ts)) else LetInit(ts, i)
  }

  /** The initializer of `let pat = init;` runs from the `=` at `i` to the
      first top-level `;`. */
  function LetInit(ts: seq<Tok>, i: nat): (r: Result<Plan, Error>)
    requires 0 < i < |ts|
    ensures r.Ok? ==> WellFormed(r.value) && |r.value| > 0 && r.value[0].Let? && r.value[0].pat == ts[..i]
    decreases SizeSeq(ts), 2
  {
    var rest := ts[i + 1..];
    var j := Find(rest, {Semi});
    if j == |rest| || !IsExpr(rest[..j]) then Err(NoRule(ts))
    else
      SizeSuffix(ts, i + j + 2);
      assert rest[j + 1..] == ts[i + j + 2..];
      var tail :- Compile(rest[j + 1..]);
      WellFormedCons(Let(ts[..i], rest[..j]), tail);
      Ok([Let(ts[..i], rest[..j])] + tail)
  }

  /** The parenthesised form an expression takes when `__with_parens` hands it
      back: the arm `kw ($e:expr) { … }` takes the tokens as they are when they
      form an expression; otherwise `__with_parens` runs again and collects the
      group itself, so the expression is the group. */
  function Wrap(e: seq<Tok>): (r: seq<Tok>)
    ensures IsExpr(r)
    ensures IsExpr(e) ==> r == e
  {
    if IsExpr(e) then e else [Paren(e)]
  }

  /** An expression followed by its block, as `match`, `for` and `if` need:
      `(e) { … }` directly when the group holds an expression, otherwise
      whatever `__with_parens` collects before the first top-level brace group. */
  function Header(ts: seq<Tok>): (r: Result<Split, Error>)
    ensures r.Ok? <==> exists i :: 0 <= i < |ts| && ts[i].Brace?
    ensures r.Err? ==> r.error == MissingBlock(ts)
    ensures r.Ok? ==> IsExpr(r.value.expr)
    ensures r.Ok? ==> SizeSeq(r.value.body) < SizeSeq(ts) && SizeSeq(r.value.tail) < SizeSeq(ts)
  {
    if |ts| >= 2 && ts[0].Paren? && ts[1].Brace? && IsExpr(ts[0].tts) then
      assert ts == [ts[0]] + [Brace(ts[1].tts)] + ts[2..];
      SizeAroundBrace(ts, [ts[0]], ts[1].tts, ts[2..]);
      Ok(Split(ts[0].tts, ts[1].tts, ts[2..]))
    else
      var r := WithParens([], ts);
      assert [] + ts == ts;
      if r.Err? then Err(r.error)
      else
        CollectedSizes(ts, r.value);
        Ok(Split(Wrap(r.value.expr), r.value.body, r.value.tail))
  }

  lemma CollectedSizes(ts: seq<Tok>, s: Split)
    requires WithParens([], ts) == Ok(s)
    ensures SizeSeq(s.body) < SizeSeq(ts) && SizeSeq(s.tail) < SizeSeq(ts)
  {
    var k := |s.expr|;
    assert [] + ts[..k] == ts[..k];
    assert ts == s.expr + [Brace(s.body)] + s.tail;
    SizeAroundBrace(ts, s.expr, s.body, s.tail);
  }

  /** The test of an `if` or `else if` (after the keywords), with its block and
      what follows: `let pat = e { … }` or `e { … }`. */
  function Condition(ts: seq<Tok>): (r: Result<(Cond, Split), Error>)
    ensures r.Ok? ==> SizeSeq(r.value.1.body) < SizeSeq(ts) && SizeSeq(r.value.1.tail) < SizeSeq(ts)
    ensures r.Ok? ==> IsExpr(r.value.0.expr) && r.value.0.expr == r.value.1.expr
    ensures r.Ok? ==> (r.value.0.IfLet? <==> StartsWith(ts, Kw(LetKw)))
    ensures r.Ok? && r.value.0.IfLet? ==> |r.value.0.pat| > 0 && r.value.0.pat == ts[1..][..Find(ts[1..], {Assign})]
  {
    if StartsWith(ts, Kw(LetKw)) then LetCondition(ts)
    else
      var h :- Header(ts);
      Ok((Bool(h.expr), h))
  }

  /** `let pat = e { … }`: the pattern runs to the first top-level `=`. */
  function LetCondition(ts: seq<Tok>): (r: Result<(Cond, Split), Error>)
    requires StartsWith(ts, Kw(LetKw))
    ensures r.Ok? ==> SizeSeq(r.value.1.body) < SizeSeq(ts) && SizeSeq(r.value.1.tail) < SizeSeq(ts)
    ensures r.Ok? ==> r.value.0.IfLet? && IsExpr(r.value.0.expr) && r.value.0.expr == r.value.1.expr
    ensures r.Ok? ==> |r.value.0.pat| > 0 && r.value.0.pat == ts[1..][..Find(ts[1..], {Assign})]
  {
    var i := Find(ts[1..], {Assign});
    if i == 0 || i == |ts| - 1 then Err(NoRule(ts))
    else
      SizeSuffix(ts, i + 2);
      assert ts[1..][i + 1..] == ts[i + 2..];
      var h :- Header(ts[i + 2..]);
      Ok((IfLet(ts[1..][..i], h.expr), h))
  }

  /** Append a new, independent `if` to the compiled statements. */
  function NewIf(acc: Plan, b: Branch): Plan {
    acc + [If([b], NoElse)]
  }

  /** Is the last compiled statement an `if` chain still open for `else`? */
  predicate OpenChain(acc: Plan) {
    |acc| > 0 && acc[|acc| - 1].If? && acc[|acc| - 1].otherwise.NoElse?
  }

  /** Extend the last `if` chain with an `else if` branch. */
  function ElseIf(acc: Plan, b: Branch): Plan
    requires OpenChain(acc)
  {
    var last := acc[|acc| - 1];
    acc[..|acc| - 1] + [If(last.branches + [b], NoElse)]
  }

  /** Close the last `if` chain with an `else` block. */
  function Otherwise(acc: Plan, body: Plan): Plan
    requires OpenChain(acc)
  {
    var last := acc[|acc| - 1];
    acc[..|acc| - 1] + [If(last.branches, ElseBlock(body))]
  }

  /** `__fmt_if`: collect the chain `if … else if … else …`.

      `acc` is the code collected so far. An `if` appends a new chain (it is a
      separate Rust statement), `else if` extends the last chain, `else { … }`
      closes it and returns to `__fmt`; any other token ends the collection. */
  function IfChain(acc: Plan, ts: seq<Tok>): (r: Result<Plan, Error>)
    ensures WellFormed(acc) && r.Ok? ==> WellFormed(r.value)
    decreases SizeSeq(ts), 2
  {
    if StartsWith(ts, Kw(IfKw)) then
      SizeSuffix(ts, 1);
      var c :- Condition(ts[1..]);
      var body :- Compile(c.1.body);
      NewIfWellFormed(acc, Branch(c.0, body));
      IfChain(NewIf(acc, Branch(c.0, body)), c.1.tail)
    else if |ts| >= 2 && ts[0] == Kw(ElseKw) && ts[1] == Kw(IfKw) then
      if !OpenChain(acc) then Err(NoRule(ts))
      else
        SizeSuffix(ts, 2);
        var c :- Condition(ts[2..]);
        var body :- Compile(c.1.body);
        ElseIfWellFormed(acc, Branch(c.0, body));
        IfChain(ElseIf(acc, Branch(c.0, body)), c.1.tail)
    else if |ts| >= 2 && ts[0] == Kw(ElseKw) && ts[1].Brace? then
      if !OpenChain(acc) then Err(NoRule(ts))
      else
        SizeInterior(ts, 1);
        SizeSuffix(ts, 2);
        var body :- Compile(ts[1].tts);
        var rest :- Compile(ts[2..]);
        OtherwiseWellFormed(acc, body);
        WellFormedConcat(Otherwise(acc, body), rest);
        Ok(Otherwise(acc, body) + rest)
    else
      var rest :- Compile(ts);
      WellFormedConcat(acc, rest);
      Ok(acc + rest)
  }

  lemma NewIfWellFormed(acc: Plan, b: Branch)
    requires WellFormedBranch(b)
    ensures WellFormed(acc) ==> WellFormed(NewIf(acc, b))
  {
    WellFormedConcat(acc, [If([b], NoElse)]);
  }

  lemma ElseIfWellFormed(acc: Plan, b: Branch)
    requires OpenChain(acc) && WellFormedBranch(b)
    ensures WellFormed(acc) ==> WellFormed(ElseIf(acc, b))
  {
    var n := |acc| - 1;
    assert acc == acc[..n] + [acc[n]];
    WellFormedConcat(acc[..n], [acc[n]]);
    WellFormedConcat(acc[..n], [If(acc[n].branches + [b], NoElse)]);
  }

  lemma OtherwiseWellFormed(acc: Plan, body: Plan)
    requires OpenChain(acc) && WellFormed(body)
    ensures WellFormed(acc) ==> WellFormed(Otherwise(acc, body))
  {
    var n := |acc| - 1;
    assert acc == acc[..n] + [acc[n]];
    WellFormedConcat(acc[..n], [acc[n]]);
    WellFormedConcat(acc[..n], [If(acc[n].branches, ElseBlock(body))]);
  }

  /** `match` (after the keyword): the scrutinee, then the arms in its block. */
  function CompileMatch(ts: seq<Tok>): (r: Result<Plan, Error>)
    ensures r.Ok? ==> WellFormed(r.value) && |r.value| > 0 && r.value[0].Match?
    decreases SizeSeq(ts), 3
  {
    var h :- Header(ts);
    var arms :- Arms([], h.body);
    var rest :- Compile(h.tail);
    WellFormedCons(Match(h.expr, arms), rest);
    Ok([Match(h.expr, arms)] + rest)
  }

  /** An arm pattern: non-empty, with no top-level `if` or `=>`. */
  predicate PlainPattern(p: seq<Tok>) {
    |p| > 0 && forall j :: 0 <= j < |p| ==> p[j] != Kw(IfKw) && p[j] != FatArrow
  }

  /** `p [if g] => after` reassembles `ts`, the pattern `p` is plain and a
      guard is an expression. */
  ghost predicate HeadOf(ts: seq<Tok>, p: seq<Tok>, g: Option<seq<Tok>>, after: seq<Tok>) {
    && PlainPattern(p)
    && (g.None? ==> ts == p + [FatArrow] + after)
    && (g.Some? ==> IsExpr(g.value) && ts == p + [Kw(IfKw)] + g.value + [FatArrow] + after)
  }

  /** An arm's head `pat [if guard] =>`, and the tokens after `=>`. */
  function ArmHead(ts: seq<Tok>): (r: Result<(seq<Tok>, Option<seq<Tok>>, seq<Tok>), Error>)
    ensures r.Ok? ==> HeadOf(ts, r.value.0, r.value.1, r.value.2) && SizeSeq(r.value.2) < SizeSeq(ts)
  {
    var i := Find(ts, {Kw(IfKw), FatArrow});
    if i == 0 || i == |ts| then Err(NoRule(ts))
    else if ts[i] == FatArrow then
      SizeSuffix(ts, i + 1);
      PlainHead(ts, i);
      Ok((ts[..i], None, ts[i + 1..]))
    else
      var g := ts[i + 1..];
      var j := Find(g, {FatArrow});
      if j == |g| || !IsExpr(g[..j]) then Err(NoRule(ts))
      else
        SizeSuffix(ts, i + j + 2);
        assert g[j + 1..] == ts[i + j + 2..];
        GuardedHead(ts, i, j);
        Ok((ts[..i], Some(g[..j]), g[j + 1..]))
  }

  lemma PlainHead(ts: seq<Tok>, i: nat)
    requires 0 < i < |ts| && i == Find(ts, {Kw(IfKw), FatArrow}) && ts[i] == FatArrow
    ensures HeadOf(ts, ts[..i], None, ts[i + 1..])
  {
    var p, after := ts[..i], ts[i + 1..];
    assert PlainPattern(p) by { PatternBefore(ts, i); }
    assert ts == p + [FatArrow] + after by { SplitAround(ts, i); }
  }

  lemma SplitAround(ts: seq<Tok>, i: nat)
    requires i < |ts|
    ensures ts == ts[..i] + [ts[i]] + ts[i + 1..]
  {
    assert ts == ts[..i] + ts[i..];
  }

  lemma GuardedHead(ts: seq<Tok>, i: nat, j: nat)
    requires 0 < i < |ts| && i == Find(ts, {Kw(IfKw), FatArrow}) && ts[i] == Kw(IfKw)
    requires j < |ts[i + 1..]| && ts[i + 1..][j] == FatArrow && IsExpr(ts[i + 1..][..j])
    ensures HeadOf(ts, ts[..i], Some(ts[i + 1..][..j]), ts[i + 1..][j + 1..])
  {
    assert PlainPattern(ts[..i]) by { PatternBefore(ts, i); }
    var g := ts[i + 1..];
    assert ts == ts[..i] + [Kw(IfKw)] + g by { SplitAround(ts, i); }
    assert g == g[..j] + [FatArrow] + g[j + 1..] by { SplitAround(g, j); }
  }

  /** The tokens before the first top-level `if` or `=>` hold neither. */
  lemma PatternBefore(ts: seq<Tok>, i: nat)
    requires 0 < i <= |ts| && i == Find(ts, {Kw(IfKw), FatArrow})
    ensures PlainPattern(ts[..i])
  {
    forall j | 0 <= j < i
      ensures ts[..i][j] != Kw(IfKw) && ts[..i][j] != FatArrow
    {
      assert ts[..i][j] == ts[j];
      assert ts[j] !in {Kw(IfKw), FatArrow};
    }
  }

  /** `r` starts with the arms `acc` collected before it, and is well formed
      when they are. */
  ghost predicate ExtendsArms(acc: seq<Arm>, r: Result<seq<Arm>, Error>) {
    r.Ok? ==>
      && |acc| <= |r.value| && r.value[..|acc|] == acc
      && ((forall a :: a in acc ==> WellFormedArm(a)) ==> forall a :: a in r.value ==> WellFormedArm(a))
  }

  /** `__fmt_match` with `__until_comma`: compile the arms in source order.

      A braced body is taken as it is, with or without a trailing comma; an
      unbraced body runs to the next top-level comma (consumed) or the end. */
  function Arms(acc: seq<Arm>, ts: seq<Tok>): (r: Result<seq<Arm>, Error>)
    ensures ExtendsArms(acc, r)
    decreases SizeSeq(ts), 3
  {
    if ts == [] then Ok(acc)
    else
      var head :- ArmHead(ts);
      var body :- ArmBody(head.2);
      var r := Arms(acc + [Arm(head.0, head.1, body.0)], body.1);
      ArmsPrefix(acc, Arm(head.0, head.1, body.0), r);
      r
  }

  /** An arm's body after `=>`, compiled, and the tokens of the arms after
      it: a braced body with its optional comma, or an unbraced body up to
      and including the next top-level comma. */
  function ArmBody(ts: seq<Tok>): (r: Result<(Plan, seq<Tok>), Error>)
    ensures r.Ok? ==> WellFormed(r.value.0) && SizeSeq(r.value.1) <= SizeSeq(ts)
    decreases SizeSeq(ts), 5
  {
    if ts != [] && ts[0].Brace? then
      SizeInterior(ts, 0);
      SizeSuffix(ts, 1);
      var body :- Compile(ts[0].tts);
      var next := if |ts| >= 2 && ts[1] == Comma then ts[2..] else ts[1..];
      SizeSuffix(ts, |ts| - |next|);
      assert next == ts[|ts| - |next|..];
      Ok((body, next))
    else
      var split := UntilComma([], ts);
      SizeSeqConcat(split.0, split.1);
      var body :- Compile(split.0);
      var next := if split.1 == [] then [] else split.1[1..];
      SizeSuffix(split.1, |split.1| - |next|);
      assert next == split.1[|split.1| - |next|..];
      Ok((body, next))
  }

  /** Collecting one more arm keeps what was collected before it. */
  lemma ArmsPrefix(acc: seq<Arm>, a: Arm, r: Result<seq<Arm>, Error>)
    requires ExtendsArms(acc + [a], r) && WellFormedArm(a)
    ensures ExtendsArms(acc, r)
  {
    if r.Ok? {
      assert r.value[..|acc|] == r.value[..|acc| + 1][..|acc|];
    }
  }

  /** `for pat in iter { body }` (after `for`). */
  function CompileFor(ts: seq<Tok>): (r: Result<Plan, Error>)
    ensures r.Ok? ==> WellFormed(r.value) && |r.value| > 0 && r.value[0].For?
    ensures r.Ok? ==> r.value[0].pat == ts[..Find(ts, {Kw(InKw)})]
    decreases SizeSeq(ts), 3
  {
    var i := Find(ts, {Kw(InKw)});
    if i == 0 || i == |ts| then Err(NoRule(ts))
    else
      SizeSuffix(ts, i + 1);
      var h :- Header(ts[i + 1..]);
      var body :- Compile(h.body);
      var rest :- Compile(h.tail);
      WellFormedCons(For(ts[..i], h.expr, body), rest);
      Ok([For(ts[..i], h.expr, body)] + rest)
  }

  /** `__fmt_format` and `__fmt_expr`: an interpolation `{ e }`, `{ e : spec }`
      or `{ e ; spec }`. The interior splits at its first top-level `:` or `;`;
      the format string is `"{}"` without a specifier and otherwise the
      spelling of `: spec` in braces (a `;` is rewritten to `:` first). */
  function Interpolate(e: seq<Tok>): (r: Result<Node, Error>)
    ensures r.Ok? ==> r.value.WriteFmt? && 1 <= |r.value.args| <= 2
    ensures r.Ok? ==> forall a :: a in r.value.args ==> IsExpr(a)
  {
    var i := Find(e, {Colon, Semi});
    var fmt := if i == |e| then "{}" else "{" + Spell([Colon] + e[i + 1..]) + "}";
    var args :- Arguments(e[..i]);
    Ok(WriteFmt(fmt, args))
  }

  /** `$e:expr $(, $w:expr)?`: the value, and an optional second argument a
      specifier can refer to (`{"x", width:1$}`). */
  function Arguments(x: seq<Tok>): (r: Result<seq<seq<Tok>>, Error>)
    ensures Find(x, {Comma}) == |x| ==> (r.Ok? <==> IsExpr(x))
    ensures var j := Find(x, {Comma});
      j < |x| ==> (r.Ok? <==> IsExpr(x[..j]) && IsExpr(x[j + 1..]))
    ensures r.Err? ==> r.error == NoRule(x)
    ensures r.Ok? ==> 1 <= |r.value| <= 2 && forall a :: a in r.value ==> IsExpr(a)
    ensures r.Ok? ==> (|r.value| == 1 ==> r.value[0] == x)
    ensures r.Ok? ==> (|r.value| == 2 ==> x == r.value[0] + [Comma] + r.value[1])
  {
    var j := Find(x, {Comma});
    if j == |x| then
      if IsExpr(x) then Ok([x]) else Err(NoRule(x))
    else if IsExpr(x[..j]) && IsExpr(x[j + 1..]) then
      assert x == x[..j] + [Comma] + x[j + 1..];
      Ok([x[..j], x[j + 1..]])
    else Err(NoRule(x))
  }
}

=== FILE: template_props.dfy ===
/** Properties of the template compiler: literal coalescing, the
    interpolation split, the expression-boundary scanners, paren flattening,
    if chains, match arms and loops. */
module TemplateProps {
  import opened Wrappers
  import opened Tokens
  import opened Scan
  import opened Plans
  import opened Template
  import opened RenderProps

  predicate AllLits(ts: seq<Tok>) {
    forall j :: 0 <= j < |ts| ==> ts[j].Lit?
  }

  // ---------------------------------------------------------------------------
  // Literals

  lemma {:induction false} LitRunSkips(lits: seq<Tok>, rest: seq<Tok>)
    requires AllLits(lits)
    ensures LitRun(lits + rest) == |lits| + LitRun(rest)
  {
    if lits == [] {
      assert lits + rest == rest;
    } else {
      assert (lits + rest)[0] == lits[0];
      assert (lits + rest)[1..] == lits[1..] + rest;
      LitRunSkips(lits[1..], rest);
    }
  }

  lemma {:induction false} ConcatAppend(a: seq<Tok>, b: seq<Tok>)
    ensures Concat(a + b) == Concat(a) + Concat(b)
  {
    if a == [] {
      assert a + b == b;
    } else {
      assert (a + b)[0] == a[0];
      assert (a + b)[1..] == a[1..] + b;
      ConcatAppend(a[1..], b);
    }
  }

  /** A run of one or more literals followed by a non-literal compiles to ONE
      `write_str` of the in-order concatenation of their texts. */
  lemma LiteralsCoalesce(lits: seq<Tok>, rest: seq<Tok>)
    requires |lits| >= 1 && AllLits(lits)
    requires rest == [] || !rest[0].Lit?
    ensures Compile(rest).Ok? ==>
      Compile(lits + rest) == Ok([WriteStr(Concat(lits))] + Compile(rest).value)
    ensures Compile(rest).Err? ==> Compile(lits + rest) == Err(Compile(rest).error)
  {
    var ts := lits + rest;
    LitRunSkips(lits, rest);
    assert ts[0] == lits[0];
    assert ts[..|lits|] == lits && ts[|lits|..] == rest;
  }

  /** A template starting with a literal writes the concatenation of its
      leading literal run, then compiles the rest. */
  lemma CompileLitHead(ts: seq<Tok>)
    requires ts != [] && ts[0].Lit?
    ensures Compile(ts[LitRun(ts)..]).Ok? ==>
      Compile(ts) == Ok([WriteStr(Concat(ts[..LitRun(ts)]))] + Compile(ts[LitRun(ts)..]).value)
    ensures Compile(ts[LitRun(ts)..]).Err? ==> Compile(ts) == Err(Compile(ts[LitRun(ts)..]).error)
  {
  }

  /** Splitting a literal into adjacent literals changes nothing: any literal
      run compiles as the single literal holding its concatenation. */
  lemma SplitLiteral(lits: seq<Tok>, rest: seq<Tok>)
    requires |lits| >= 1 && AllLits(lits)
    ensures Compile(lits + rest) == Compile([Lit(Concat(lits))] + rest)
  {
    var one := [Lit(Concat(lits))];
    var k := LitRun(rest);
    RunOfLiterals(lits, rest);
    RunOfLiterals(one, rest);
    assert Concat(one) == Concat(lits) by {
      assert one[1..] == [];
    }
    assert Concat((lits + rest)[..LitRun(lits + rest)]) == Concat((one + rest)[..LitRun(one + rest)]);
    assert (lits + rest)[LitRun(lits + rest)..] == (one + rest)[LitRun(one + rest)..];
    CompileLitHead(lits + rest);
    CompileLitHead(one + rest);
  }

  /** The leading literal run of `lits + rest` is `lits` and the run of `rest`. */
  lemma RunOfLiterals(lits: seq<Tok>, rest: seq<Tok>)
    requires |lits| >= 1 && AllLits(lits)
    ensures (lits + rest)[0].Lit?
    ensures LitRun(lits + rest) == |lits| + LitRun(rest)
    ensures Concat((lits + rest)[..LitRun(lits + rest)]) == Concat(lits) + Concat(rest[..LitRun(rest)])
    ensures (lits + rest)[LitRun(lits + rest)..] == rest[LitRun(rest)..]
  {
    var k := LitRun(rest);
    LitRunSkips(lits, rest);
    assert (lits + rest)[..|lits| + k] == lits + rest[..k];
    ConcatAppend(lits, rest[..k]);
  }

  /** `fmt!("abc" "def")` is `write_str("abcdef")`. */
  lemma TwoLiterals()
    ensures Compile([Lit("abc"), Lit("def")]) == Ok([WriteStr("abcdef")])
  {
    var lits := [Lit("abc"), Lit("def")];
    LiteralsCoalesce(lits, []);
    assert lits + [] == lits;
    assert lits[1..] == [Lit("def")] && [Lit("def")][1..] == [];
    assert Concat(lits) == "abc" + ("def" + "") == "abcdef";
    assert Compile([]) == Ok([]);
    assert [WriteStr("abcdef")] + [] == [WriteStr("abcdef")];
  }

  // ---------------------------------------------------------------------------
  // Interpolations

  predicate NoFormatSeparator(x: seq<Tok>) {
    forall j :: 0 <= j < |x| ==> x[j] != Colon && x[j] != Semi
  }

  /** An interpolation splits at its first top-level `:` or `;`: the tokens
      before it are the arguments, the tokens after it the specifier, and the
      format string is the spelling of `: spec` in braces for either
      separator. */
  lemma InterpolationSplits(x: seq<Tok>, sep: Tok, spec: seq<Tok>)
    requires NoFormatSeparator(x)
    requires sep == Colon || sep == Semi
    ensures Arguments(x).Ok? ==>
      Interpolate(x + [sep] + spec) == Ok(WriteFmt("{" + Spell([Colon] + spec) + "}", Arguments(x).value))
    ensures Arguments(x).Err? ==> Interpolate(x + [sep] + spec) == Err(Arguments(x).error)
  {
    PatternEndsAt(x, sep, spec, {Colon, Semi});
  }

  /** Without a separator the format string is exactly `"{}"`. */
  lemma InterpolationPlain(x: seq<Tok>)
    requires NoFormatSeparator(x)
    ensures Arguments(x).Ok? ==> Interpolate(x) == Ok(WriteFmt("{}", Arguments(x).value))
    ensures Arguments(x).Err? ==> Interpolate(x) == Err(Arguments(x).error)
  {
    assert x[..|x|] == x;
  }

  /** `{value:#x}` formats `value` with `"{:#x}"`. */
  lemma HexInterpolation()
    ensures Interpolate([Ident("value"), Colon, Punct("#"), Ident("x")])
         == Ok(WriteFmt("{:#x}", [[Ident("value")]]))
  {
    var x := [Ident("value")];
    var spec := [Punct("#"), Ident("x")];
    InterpolationSplits(x, Colon, spec);
    assert x + [Colon] + spec == [Ident("value"), Colon, Punct("#"), Ident("x")];
    HexSpelling();
    assert x[1..] == [];
    assert Find(x, {Comma}) == 1;
    assert Arguments(x) == Ok([x]);
  }

  lemma HexSpelling()
    ensures "{" + Spell([Colon, Punct("#"), Ident("x")]) + "}" == "{:#x}"
  {
    var t1, t2, t3 := [Ident("x")], [Punct("#"), Ident("x")], [Colon, Punct("#"), Ident("x")];
    assert Spell(t1) == "x" by {
      assert t1[1..] == [];
      assert "x" + "" == "x";
    }
    assert Spell(t2) == "#x" by {
      assert t2[1..] == t1;
      assert "#" + "x" == "#x";
    }
    assert Spell(t3) == ":#x" by {
      assert t3[1..] == t2;
      assert Spelling(Colon) == ":";
      assert ":" + "#x" == ":#x";
    }
    assert "{" + ":#x" + "}" == "{:#x}";
  }

  // ---------------------------------------------------------------------------
  // Expression boundaries

  predicate NoBrace(e: seq<Tok>) {
    forall j :: 0 <= j < |e| ==> !e[j].Brace?
  }

  /** `__with_parens` ends the expression at the first top-level brace group
      and nowhere else: everything before it, including groups that contain
      braces, is the expression. */
  lemma WithParensStopsAtFirstBrace(e: seq<Tok>, body: seq<Tok>, tail: seq<Tok>)
    requires NoBrace(e)
    ensures WithParens([], e + [Brace(body)] + tail) == Ok(Split(e, body, tail))
  {
    var ts := e + [Brace(body)] + tail;
    assert ts[|e|] == Brace(body);
    assert forall j :: 0 <= j < |e| ==> ts[j] == e[j];
    var r := WithParens([], ts);
    assert SplitsAt([], ts, r.value);
    var k := |r.value.expr|;
    assert k == |e|;
    assert ts[..|e|] == e;
    assert ts[|e| + 1..] == tail;
    assert [] + e == e;
  }

  /** Without a top-level brace group the header fails with "missing block
      after expression", naming the collected tokens. */
  lemma HeaderNeedsBlock(ts: seq<Tok>)
    requires NoBrace(ts)
    ensures Header(ts) == Err(MissingBlock(ts))
  {
  }

  /** The expression a header takes from the tokens `e` before its block:
      the interior of `(x)` when `x` is an expression, otherwise the tokens
      themselves, parenthesised when they do not form an expression alone. */
  function HeadExpr(e: seq<Tok>): seq<Tok> {
    if |e| == 1 && e[0].Paren? && IsExpr(e[0].tts) then e[0].tts else Wrap(e)
  }

  /** The header splits at the first top-level brace group: the block is
      that group, the tail what follows it, and the expression the tokens
      before it as `HeadExpr` reads them. */
  lemma HeaderSplitsAtFirstBrace(e: seq<Tok>, body: seq<Tok>, tail: seq<Tok>)
    requires NoBrace(e)
    ensures Header(e + [Brace(body)] + tail) == Ok(Split(HeadExpr(e), body, tail))
  {
    var ts := e + [Brace(body)] + tail;
    WithParensStopsAtFirstBrace(e, body, tail);
    assert [] + ts == ts;
    assert forall j :: 0 <= j < |e| ==> ts[j] == e[j];
    assert ts[|e|] == Brace(body);
    if |e| == 1 && e[0].Paren? && IsExpr(e[0].tts) {
      assert ts[2..] == tail;
      assert Header(ts) == Ok(Split(e[0].tts, body, tail));
    } else {
      assert Header(ts) == Ok(Split(Wrap(e), body, tail));
    }
  }

  /** `for p in e` with no block after the expression does not compile. */
  lemma ForNeedsBlock(p: seq<Tok>, e: seq<Tok>)
    requires |p| > 0 && forall j :: 0 <= j < |p| ==> p[j] != Kw(InKw)
    requires NoBrace(e)
    ensures Compile([Kw(ForKw)] + (p + [Kw(InKw)] + e)) == Err(MissingBlock(e))
  {
    var us := p + [Kw(InKw)] + e;
    PatternEndsAt(p, Kw(InKw), e, {Kw(InKw)});
    HeaderNeedsBlock(e);
    assert ([Kw(ForKw)] + us)[1..] == us;
    CompileForKw([Kw(ForKw)] + us);
  }

  /** `__until_comma` ends an arm body at its first top-level comma, keeping
      the comma for the next arm, or at the end of the input. */
  lemma {:induction false} UntilCommaStopsAtFirstComma(acc: seq<Tok>, body: seq<Tok>, rest: seq<Tok>)
    requires forall j :: 0 <= j < |body| ==> body[j] != Comma
    requires rest == [] || rest[0] == Comma
    ensures UntilComma(acc, body + rest) == (acc + body, rest)
    decreases |body|
  {
    if body == [] {
      assert body + rest == rest && acc + body == acc;
    } else {
      assert (body + rest)[0] == body[0];
      assert (body + rest)[1..] == body[1..] + rest;
      UntilCommaStopsAtFirstComma(acc + [body[0]], body[1..], rest);
      assert acc + [body[0]] + body[1..] == acc + body;
    }
  }

  // ---------------------------------------------------------------------------
  // Paren batching

  /** A paren group in segment position compiles to its contents followed by
      the rest. */
  lemma ParenInPlace(inner: seq<Tok>, rest: seq<Tok>)
    ensures Compile(inner).Err? ==> Compile([Paren(inner)] + rest) == Err(Compile(inner).error)
    ensures Compile(inner).Ok? && Compile(rest).Ok? ==>
      Compile([Paren(inner)] + rest) == Ok(Compile(inner).value + Compile(rest).value)
  {
    assert ([Paren(inner)] + rest)[1..] == rest;
  }

  /** Flattening is invisible in the output: a paren group renders its
      contents, then the rest renders in the scope the contents leave. */
  lemma ParenTransparent<S>(h: Host<S>, inner: seq<Tok>, rest: seq<Tok>, sc: S)
    requires Compile(inner).Ok? && Compile(rest).Ok?
    ensures Compile([Paren(inner)] + rest).Ok?
    ensures EmitPlan(h, Compile([Paren(inner)] + rest).value, sc).1
         == EmitPlan(h, Compile(inner).value, sc).1
          + EmitPlan(h, Compile(rest).value, EmitPlan(h, Compile(inner).value, sc).0).1
  {
    ParenInPlace(inner, rest);
    EmitConcat(h, Compile(inner).value, Compile(rest).value, sc);
  }


  // ---------------------------------------------------------------------------
  // Tests of `if` and `else if`

  /** The test of an `if` or `else if`: a boolean expression, or `let pat =`
      and the scrutinee; either way the expression runs up to the block. */
  datatype Test = Plain(expr: seq<Tok>) | Pattern(pat: seq<Tok>, expr: seq<Tok>)

  function TestTokens(t: Test): seq<Tok> {
    match t
    case Plain(e) => e
    case Pattern(p, e) => [Kw(LetKw)] + (p + [Assign] + e)
  }

  /** The expression holds no top-level block, a plain test does not start
      with `let`, and a pattern is non-empty and ends at its `=`. */
  predicate TestOk(t: Test) {
    && NoBrace(t.expr)
    && (t.Plain? ==> !StartsWith(t.expr, Kw(LetKw)))
    && (t.Pattern? ==> |t.pat| > 0 && forall j :: 0 <= j < |t.pat| ==> t.pat[j] != Assign)
  }

  /** The condition a test denotes. */
  function TestCond(t: Test): Cond {
    match t
    case Plain(e) => Bool(HeadExpr(e))
    case Pattern(p, e) => IfLet(p, HeadExpr(e))
  }

  /** A test followed by its block: the condition is the test's expression as
      the header reads it, bound by the pattern when there is one, and the
      block and the tail are split off as they are. */
  lemma ConditionOf(t: Test, b: seq<Tok>, rest: seq<Tok>)
    requires TestOk(t)
    ensures Condition(TestTokens(t) + [Brace(b)] + rest)
         == Ok((TestCond(t), Split(HeadExpr(t.expr), b, rest)))
  {
    match t
    case Plain(e) =>
      var ts := e + [Brace(b)] + rest;
      assert !StartsWith(ts, Kw(LetKw)) by {
        if |e| > 0 { assert ts[0] == e[0]; }
      }
      HeaderSplitsAtFirstBrace(e, b, rest);
    case Pattern(p, e) =>
      var after := e + [Brace(b)] + rest;
      var us := p + [Assign] + after;
      assert TestTokens(t) + [Brace(b)] + rest == [Kw(LetKw)] + us;
      PatternEndsAt(p, Assign, after, {Assign});
      assert ([Kw(LetKw)] + us)[1..] == us;
      assert ([Kw(LetKw)] + us)[|p| + 2..] == after;
      HeaderSplitsAtFirstBrace(e, b, rest);
  }

  // ---------------------------------------------------------------------------
  // If chains, one `__fmt_if` arm at a time

  lemma CompileIf(ts: seq<Tok>)
    requires StartsWith(ts, Kw(IfKw))
    ensures Compile(ts) == IfChain([], ts)
  {
    assert Compile(ts) == CompileKeyword(ts);
  }

  /** `if test { b }` appends a new chain whose one branch is the test's
      condition with the compiled block. */
  lemma IfStep(acc: Plan, t: Test, b: seq<Tok>, rest: seq<Tok>)
    requires TestOk(t) && Compile(b).Ok?
    ensures IfChain(acc, [Kw(IfKw)] + (TestTokens(t) + [Brace(b)] + rest))
         == IfChain(NewIf(acc, Branch(TestCond(t), Compile(b).value)), rest)
  {
    var c := TestTokens(t) + [Brace(b)] + rest;
    assert ([Kw(IfKw)] + c)[1..] == c;
    ConditionOf(t, b, rest);
  }

  /** `else if test { b }` extends the open chain with a branch. */
  lemma ElseIfStep(acc: Plan, t: Test, b: seq<Tok>, rest: seq<Tok>)
    requires OpenChain(acc) && TestOk(t) && Compile(b).Ok?
    ensures IfChain(acc, [Kw(ElseKw), Kw(IfKw)] + (TestTokens(t) + [Brace(b)] + rest))
         == IfChain(ElseIf(acc, Branch(TestCond(t), Compile(b).value)), rest)
  {
    var c := TestTokens(t) + [Brace(b)] + rest;
    assert ([Kw(ElseKw), Kw(IfKw)] + c)[2..] == c;
    ConditionOf(t, b, rest);
  }

  lemma ElseStep(acc: Plan, b: seq<Tok>, rest: seq<Tok>)
    requires OpenChain(acc) && Compile(b).Ok? && Compile(rest).Ok?
    ensures IfChain(acc, [Kw(ElseKw), Brace(b)] + rest)
         == Ok(Otherwise(acc, Compile(b).value) + Compile(rest).value)
  {
    assert ([Kw(ElseKw), Brace(b)] + rest)[2..] == rest;
  }

  lemma ChainEnds(acc: Plan, rest: seq<Tok>)
    requires !StartsWith(rest, Kw(IfKw)) && !StartsWith(rest, Kw(ElseKw))
    ensures Compile(rest).Ok? ==> IfChain(acc, rest) == Ok(acc + Compile(rest).value)
    ensures Compile(rest).Err? ==> IfChain(acc, rest) == Err(Compile(rest).error)
  {
  }

  /** One `else if test { body }` link of a chain. */
  datatype Link = Link(test: Test, body: seq<Tok>)

  function LinkTokens(ls: seq<Link>): seq<Tok> {
    if ls == [] then []
    else [Kw(ElseKw), Kw(IfKw)] + (TestTokens(ls[0].test) + [Brace(ls[0].body)] + LinkTokens(ls[1..]))
  }

  predicate LinksOk(ls: seq<Link>) {
    forall i :: 0 <= i < |ls| ==> TestOk(ls[i].test) && Compile(ls[i].body).Ok?
  }

  /** The branch each link contributes, in order. */
  function LinkBranches(ls: seq<Link>): seq<Branch>
    requires LinksOk(ls)
  {
    if ls == [] then []
    else [Branch(TestCond(ls[0].test), Compile(ls[0].body).value)] + LinkBranches(ls[1..])
  }

  /** Any number of `else if` links extend the open chain with one branch
      each, in source order. */
  lemma {:induction false} ElseIfLinks(pre: Plan, bs: seq<Branch>, ls: seq<Link>, tail: seq<Tok>)
    requires LinksOk(ls)
    ensures IfChain(pre + [If(bs, NoElse)], LinkTokens(ls) + tail)
         == IfChain(pre + [If(bs + LinkBranches(ls), NoElse)], tail)
    decreases |ls|
  {
    if ls == [] {
      assert LinkTokens(ls) + tail == tail;
      assert bs + LinkBranches(ls) == bs;
    } else {
      var t, b := ls[0].test, ls[0].body;
      var br := Branch(TestCond(t), Compile(b).value);
      var acc := pre + [If(bs, NoElse)];
      var more := LinkTokens(ls[1..]) + tail;
      assert LinkTokens(ls) + tail == [Kw(ElseKw), Kw(IfKw)] + (TestTokens(t) + [Brace(b)] + more);
      ElseIfStep(acc, t, b, more);
      assert acc[..|acc| - 1] == pre;
      assert ElseIf(acc, br) == pre + [If(bs + [br], NoElse)];
      ElseIfLinks(pre, bs + [br], ls[1..], tail);
      assert bs + [br] + LinkBranches(ls[1..]) == bs + LinkBranches(ls);
    }
  }

  function ElseTokens(els: Option<seq<Tok>>): seq<Tok> {
    if els.Some? then [Kw(ElseKw), Brace(els.value)] else []
  }

  function ElseOf(els: Option<seq<Tok>>): Else
    requires els.Some? ==> Compile(els.value).Ok?
  {
    if els.Some? then ElseBlock(Compile(els.value).value) else NoElse
  }

  /** `if t0 {b0} else if t1 {b1} … else if tk {bk} [else {e}]` with any
      number of `else if` links is one conditional: a branch per test in
      source order, then the `else` block when there is one, followed by the
      rest of the template. Without an `else`, the rest must start with
      neither `if` nor `else`, since those would continue the collection. */
  lemma ChainCompiles(t0: Test, b0: seq<Tok>, ls: seq<Link>, els: Option<seq<Tok>>, rest: seq<Tok>)
    requires TestOk(t0) && Compile(b0).Ok? && LinksOk(ls)
    requires els.Some? ==> Compile(els.value).Ok?
    requires els.None? ==> !StartsWith(rest, Kw(IfKw)) && !StartsWith(rest, Kw(ElseKw))
    requires Compile(rest).Ok?
    ensures Compile([Kw(IfKw)] + (TestTokens(t0) + [Brace(b0)] + (LinkTokens(ls) + (ElseTokens(els) + rest))))
         == Ok([If([Branch(TestCond(t0), Compile(b0).value)] + LinkBranches(ls), ElseOf(els))]
               + Compile(rest).value)
  {
    var tail := ElseTokens(els) + rest;
    ChainOpens(t0, b0, ls, tail);
    ChainCloses([Branch(TestCond(t0), Compile(b0).value)] + LinkBranches(ls), els, rest);
  }

  lemma ChainOpens(t0: Test, b0: seq<Tok>, ls: seq<Link>, tail: seq<Tok>)
    requires TestOk(t0) && Compile(b0).Ok? && LinksOk(ls)
    ensures Compile([Kw(IfKw)] + (TestTokens(t0) + [Brace(b0)] + (LinkTokens(ls) + tail)))
         == IfChain([If([Branch(TestCond(t0), Compile(b0).value)] + LinkBranches(ls), NoElse)], tail)
  {
    var br0 := Branch(TestCond(t0), Compile(b0).value);
    CompileIf([Kw(IfKw)] + (TestTokens(t0) + [Brace(b0)] + (LinkTokens(ls) + tail)));
    IfStep([], t0, b0, LinkTokens(ls) + tail);
    assert NewIf([], br0) == [] + [If([br0], NoElse)];
    ElseIfLinks([], [br0], ls, tail);
    assert [] + [If([br0] + LinkBranches(ls), NoElse)] == [If([br0] + LinkBranches(ls), NoElse)];
  }

  lemma ChainCloses(bs: seq<Branch>, els: Option<seq<Tok>>, rest: seq<Tok>)
    requires els.Some? ==> Compile(els.value).Ok?
    requires els.None? ==> !StartsWith(rest, Kw(IfKw)) && !StartsWith(rest, Kw(ElseKw))
    requires Compile(rest).Ok?
    ensures IfChain([If(bs, NoElse)], ElseTokens(els) + rest) == Ok([If(bs, ElseOf(els))] + Compile(rest).value)
  {
    var acc: Plan := [If(bs, NoElse)];
    if els.Some? {
      ElseStep(acc, els.value, rest);
      assert ElseTokens(els) + rest == [Kw(ElseKw), Brace(els.value)] + rest;
      assert acc[..0] == [];
      assert Otherwise(acc, Compile(els.value).value) == [If(bs, ElseOf(els))];
    } else {
      assert ElseTokens(els) + rest == rest;
      ChainEnds(acc, rest);
    }
  }

  /** An `if` after a chain with no `else` starts a new, independent
      conditional: both tests are evaluated. */
  lemma IfThenIfIndependent(t1: Test, b1: seq<Tok>, t2: Test, b2: seq<Tok>, rest: seq<Tok>)
    requires TestOk(t1) && TestOk(t2)
    requires Compile(b1).Ok? && Compile(b2).Ok? && Compile(rest).Ok?
    requires !StartsWith(rest, Kw(ElseKw)) && !StartsWith(rest, Kw(IfKw))
    ensures Compile([Kw(IfKw)] + (TestTokens(t1) + [Brace(b1)]
                        + ([Kw(IfKw)] + (TestTokens(t2) + [Brace(b2)] + rest))))
         == Ok([If([Branch(TestCond(t1), Compile(b1).value)], NoElse),
                If([Branch(TestCond(t2), Compile(b2).value)], NoElse)] + Compile(rest).value)
  {
    var s2 := [Kw(IfKw)] + (TestTokens(t2) + [Brace(b2)] + rest);
    var s1 := [Kw(IfKw)] + (TestTokens(t1) + [Brace(b1)] + s2);
    var br1 := Branch(TestCond(t1), Compile(b1).value);
    var br2 := Branch(TestCond(t2), Compile(b2).value);
    CompileIf(s1);
    var a1 := NewIf([], br1);
    assert a1 == [If([br1], NoElse)];
    IfStep([], t1, b1, s2);
    var a2 := NewIf(a1, br2);
    assert a2 == [If([br1], NoElse), If([br2], NoElse)];
    IfStep(a1, t2, b2, rest);
    ChainEnds(a2, rest);
  }

  // ---------------------------------------------------------------------------
  // Match arms, one `__fmt_match` arm at a time

  /** The head of an arm without a guard ends at `=>`. */
  lemma HeadPlain(p: seq<Tok>, after: seq<Tok>)
    requires PlainPattern(p)
    ensures ArmHead(p + [FatArrow] + after) == Ok((p, None, after))
  {
    var ts := p + [FatArrow] + after;
    assert ts == p + ([FatArrow] + after);
    FindSkips(p, [FatArrow] + after, {Kw(IfKw), FatArrow});
    assert ts[..|p|] == p && ts[|p| + 1..] == after;
  }

  /** The head of a guarded arm: the pattern ends at `if`, the guard at `=>`. */
  lemma HeadGuarded(p: seq<Tok>, g: seq<Tok>, after: seq<Tok>)
    requires PlainPattern(p) && IsExpr(g)
    requires forall j :: 0 <= j < |g| ==> g[j] != FatArrow
    ensures ArmHead(p + [Kw(IfKw)] + (g + [FatArrow] + after)) == Ok((p, Some(g), after))
  {
    var gs := g + [FatArrow] + after;
    PatternEndsAt(p, Kw(IfKw), gs, {Kw(IfKw), FatArrow});
    PatternEndsAt(g, FatArrow, after, {FatArrow});
  }

  /** After the head, a braced body is taken as it is; its trailing comma is
      optional. */
  lemma BracedBody(acc: seq<Arm>, ts: seq<Tok>, p: seq<Tok>, g: Option<seq<Tok>>, b: seq<Tok>, rest: seq<Tok>)
    requires ArmHead(ts) == Ok((p, g, [Brace(b)] + rest)) && Compile(b).Ok?
    ensures Arms(acc, ts)
         == Arms(acc + [Arm(p, g, Compile(b).value)], if StartsWith(rest, Comma) then rest[1..] else rest)
  {
    var after := [Brace(b)] + rest;
    assert after[1..] == rest;
    if StartsWith(rest, Comma) {
      assert after[2..] == rest[1..];
    }
  }

  /** After the head, an unbraced body runs to the first top-level comma,
      which is consumed, or to the end of the arms. */
  lemma UnbracedBody(acc: seq<Arm>, ts: seq<Tok>, p: seq<Tok>, g: Option<seq<Tok>>, body: seq<Tok>, rest: seq<Tok>)
    requires ArmHead(ts) == Ok((p, g, body + rest)) && Compile(body).Ok?
    requires forall j :: 0 <= j < |body| ==> body[j] != Comma
    requires body == [] || !body[0].Brace?
    requires rest == [] || rest[0] == Comma
    ensures Arms(acc, ts)
         == Arms(acc + [Arm(p, g, Compile(body).value)], if rest == [] then [] else rest[1..])
  {
    UntilCommaStopsAtFirstComma([], body, rest);
    assert [] + body == body;
    if body == [] && rest != [] {
      assert (body + rest)[0] == Comma;
    }
  }

  /** No arms left: the collected arms, in source order. */
  lemma ArmsEnd(acc: seq<Arm>)
    ensures Arms(acc, []) == Ok(acc)
  {
  }

  /** One match arm as written: `pat [if guard] => body`, where the body is a
      brace group (`braced`) or bare tokens, followed by a comma or not. */
  datatype ArmSrc = ArmSrc(pat: seq<Tok>, guard: Option<seq<Tok>>, body: seq<Tok>, braced: bool, comma: bool)

  /** `pat [if guard] =>` */
  function HeadTokens(a: ArmSrc): seq<Tok> {
    a.pat + (if a.guard.Some? then [Kw(IfKw)] + a.guard.value else []) + [FatArrow]
  }

  /** `{ body }` or `body`, then the comma if there is one. */
  function BodyTokens(a: ArmSrc): seq<Tok> {
    (if a.braced then [Brace(a.body)] else a.body) + (if a.comma then [Comma] else [])
  }

  /** The tokens of a list of arms, in order. */
  function ArmTokens(arms: seq<ArmSrc>): seq<Tok>
    decreases |arms|
  {
    if arms == [] then [] else HeadTokens(arms[0]) + BodyTokens(arms[0]) + ArmTokens(arms[1..])
  }

  /** An arm the rules accept: a plain pattern, a guard that is an expression
      with no top-level `=>`, and a body that compiles; a bare body holds no
      top-level comma and does not start with a brace group. */
  predicate ArmSrcOk(a: ArmSrc) {
    && PlainPattern(a.pat)
    && (a.guard.Some? ==> IsExpr(a.guard.value) && forall j :: 0 <= j < |a.guard.value| ==> a.guard.value[j] != FatArrow)
    && Compile(a.body).Ok?
    && (!a.braced ==> (forall j :: 0 <= j < |a.body| ==> a.body[j] != Comma) && (a.body == [] || !a.body[0].Brace?))
  }

  /** Arm `a` is followed by arm `b`: a bare body needs its comma, and a braced
      body without one must not be followed by a comma token. */
  predicate Joins(a: ArmSrc, b: ArmSrc) {
    (a.braced || a.comma) && (a.braced && !a.comma ==> !StartsWith(b.pat, Comma))
  }

  /** Every arm is accepted, and each one but the last is separated from the
      next. */
  predicate ArmsOk(arms: seq<ArmSrc>)
    decreases |arms|
  {
    arms == [] || (ArmSrcOk(arms[0]) && (|arms| > 1 ==> Joins(arms[0], arms[1])) && ArmsOk(arms[1..]))
  }

  /** The arms of the generated `match`, one per source arm, in order. */
  function CompiledArms(arms: seq<ArmSrc>): seq<Arm>
    requires ArmsOk(arms)
    decreases |arms|
  {
    if arms == [] then []
    else [Arm(arms[0].pat, arms[0].guard, Compile(arms[0].body).value)] + CompiledArms(arms[1..])
  }

  /** The head of an accepted arm reads back its pattern and guard. */
  lemma ArmHeadOf(a: ArmSrc, after: seq<Tok>)
    requires ArmSrcOk(a)
    ensures ArmHead(HeadTokens(a) + after) == Ok((a.pat, a.guard, after))
  {
    if a.guard.None? {
      assert HeadTokens(a) + after == a.pat + [FatArrow] + after;
      HeadPlain(a.pat, after);
    } else {
      var g := a.guard.value;
      assert HeadTokens(a) + after == a.pat + [Kw(IfKw)] + (g + [FatArrow] + after);
      HeadGuarded(a.pat, g, after);
    }
  }

  /** The tokens of a non-empty list of arms start with the first pattern. */
  lemma ArmTokensStart(arms: seq<ArmSrc>)
    requires |arms| > 0 && |arms[0].pat| > 0
    ensures |ArmTokens(arms)| > 0 && ArmTokens(arms)[0] == arms[0].pat[0]
  {
  }

  /** Collecting one accepted arm: its pattern, guard and compiled body are
      appended and the arms after it are read next. */
  lemma ArmStep(acc: seq<Arm>, arms: seq<ArmSrc>)
    requires |arms| > 0 && ArmsOk(arms)
    ensures Arms(acc, ArmTokens(arms))
         == Arms(acc + [Arm(arms[0].pat, arms[0].guard, Compile(arms[0].body).value)], ArmTokens(arms[1..]))
  {
    var a := arms[0];
    var tail := ArmTokens(arms[1..]);
    assert ArmTokens(arms) == HeadTokens(a) + BodyTokens(a) + tail;
    if a.braced {
      if !a.comma && |arms| > 1 {
        ArmTokensStart(arms[1..]);
      }
      BracedStep(acc, a, tail);
    } else {
      if !a.comma {
        assert arms[1..] == [];
      }
      BareStep(acc, a, tail);
    }
  }

  /** One arm with a braced body, then `tail`. */
  lemma BracedStep(acc: seq<Arm>, a: ArmSrc, tail: seq<Tok>)
    requires ArmSrcOk(a) && a.braced && (!a.comma ==> !StartsWith(tail, Comma))
    ensures Arms(acc, HeadTokens(a) + BodyTokens(a) + tail)
         == Arms(acc + [Arm(a.pat, a.guard, Compile(a.body).value)], tail)
  {
    var rest := (if a.comma then [Comma] else []) + tail;
    var after := [Brace(a.body)] + rest;
    assert HeadTokens(a) + BodyTokens(a) + tail == HeadTokens(a) + after;
    ArmHeadOf(a, after);
    BracedBody(acc, HeadTokens(a) + after, a.pat, a.guard, a.body, rest);
    if a.comma {
      assert rest[1..] == tail;
    }
  }

  /** One arm with a bare body, then `tail`; a bare body without its comma
      ends the arms. */
  lemma BareStep(acc: seq<Arm>, a: ArmSrc, tail: seq<Tok>)
    requires ArmSrcOk(a) && !a.braced && (!a.comma ==> tail == [])
    ensures Arms(acc, HeadTokens(a) + BodyTokens(a) + tail)
         == Arms(acc + [Arm(a.pat, a.guard, Compile(a.body).value)], tail)
  {
    var rest := (if a.comma then [Comma] else []) + tail;
    var after := a.body + rest;
    assert HeadTokens(a) + BodyTokens(a) + tail == HeadTokens(a) + after;
    ArmHeadOf(a, after);
    UnbracedBody(acc, HeadTokens(a) + after, a.pat, a.guard, a.body, rest);
    if a.comma {
      assert rest[1..] == tail;
    }
  }

  /** The arms of a `match` block compile to one arm per source arm, in
      source order, each with its pattern, its guard and its compiled body. */
  lemma {:induction false} ArmsCompile(acc: seq<Arm>, arms: seq<ArmSrc>)
    requires ArmsOk(arms)
    ensures Arms(acc, ArmTokens(arms)) == Ok(acc + CompiledArms(arms))
    decreases |arms|
  {
    if arms == [] {
      ArmsEnd(acc);
      assert acc + [] == acc;
    } else {
      assert ArmsOk(arms[1..]);
      ArmsCompile(acc + [FirstArm(arms)], arms[1..]);
      ArmsCons(acc, arms);
    }
  }

  /** The compiled first source arm. */
  function FirstArm(arms: seq<ArmSrc>): Arm
    requires |arms| > 0 && ArmsOk(arms)
  {
    Arm(arms[0].pat, arms[0].guard, Compile(arms[0].body).value)
  }

  /** The inductive step of `ArmsCompile`. */
  lemma ArmsCons(acc: seq<Arm>, arms: seq<ArmSrc>)
    requires |arms| > 0 && ArmsOk(arms) && ArmsOk(arms[1..])
    requires Arms(acc + [FirstArm(arms)], ArmTokens(arms[1..])) == Ok(acc + [FirstArm(arms)] + CompiledArms(arms[1..]))
    ensures Arms(acc, ArmTokens(arms)) == Ok(acc + CompiledArms(arms))
  {
    ArmStep(acc, arms);
    CompiledArmsCons(acc, arms);
  }

  lemma CompiledArmsCons(acc: seq<Arm>, arms: seq<ArmSrc>)
    requires |arms| > 0 && ArmsOk(arms)
    ensures ArmsOk(arms[1..]) && acc + [FirstArm(arms)] + CompiledArms(arms[1..]) == acc + CompiledArms(arms)
  {
    assert CompiledArms(arms) == [FirstArm(arms)] + CompiledArms(arms[1..]);
    AppendOne(acc, FirstArm(arms), CompiledArms(arms[1..]));
  }

  lemma AppendOne<T>(a: seq<T>, x: T, b: seq<T>)
    ensures a + [x] + b == a + ([x] + b)
  {
  }

  /** `match e { arms }` matches the header's reading of `e` against the
      source arms, compiled and in order. */
  lemma MatchCompiles(e: seq<Tok>, arms: seq<ArmSrc>, rest: seq<Tok>)
    requires NoBrace(e) && ArmsOk(arms) && Compile(rest).Ok?
    ensures Compile([Kw(MatchKw)] + (e + [Brace(ArmTokens(arms))] + rest))
         == Ok([Match(HeadExpr(e), CompiledArms(arms))] + Compile(rest).value)
  {
    var ts := [Kw(MatchKw)] + (e + [Brace(ArmTokens(arms))] + rest);
    assert ts[1..] == e + [Brace(ArmTokens(arms))] + rest;
    assert Compile(ts) == CompileKeyword(ts) == CompileMatch(ts[1..]);
    HeaderSplitsAtFirstBrace(e, ArmTokens(arms), rest);
    ArmsCompile([], arms);
    assert [] + CompiledArms(arms) == CompiledArms(arms);
  }

  // ---------------------------------------------------------------------------
  // Loops

  lemma CompileForKw(ts: seq<Tok>)
    requires StartsWith(ts, Kw(ForKw))
    ensures Compile(ts) == CompileFor(ts[1..])
  {
    assert ts != [] && ts[0].Kw? && ts[0].kw == ForKw;
    assert Compile(ts) == CompileKeyword(ts);
  }

  /** `for p in …`: the loop pattern is everything before the first `in`,
      and the header, the body and the rest are read from the tokens after
      it, in that order; the first of them that fails decides the error. */
  lemma ForSplitsAtIn(p: seq<Tok>, after: seq<Tok>)
    requires |p| > 0 && forall j :: 0 <= j < |p| ==> p[j] != Kw(InKw)
    ensures Header(after).Err? ==> CompileFor(p + [Kw(InKw)] + after) == Err(Header(after).error)
    ensures Header(after).Ok? && Compile(Header(after).value.body).Err? ==>
      CompileFor(p + [Kw(InKw)] + after) == Err(Compile(Header(after).value.body).error)
    ensures Header(after).Ok? && Compile(Header(after).value.body).Ok? && Compile(Header(after).value.tail).Err? ==>
      CompileFor(p + [Kw(InKw)] + after) == Err(Compile(Header(after).value.tail).error)
    ensures Header(after).Ok? && Compile(Header(after).value.body).Ok? && Compile(Header(after).value.tail).Ok? ==>
      CompileFor(p + [Kw(InKw)] + after)
        == Ok([For(p, Header(after).value.expr, Compile(Header(after).value.body).value)]
              + Compile(Header(after).value.tail).value)
  {
    PatternEndsAt(p, Kw(InKw), after, {Kw(InKw)});
  }

  /** `for p in e { body }` runs the compiled body for each item of the
      header's reading of `e`. */
  lemma ForCompiles(p: seq<Tok>, e: seq<Tok>, b: seq<Tok>, rest: seq<Tok>)
    requires |p| > 0 && forall j :: 0 <= j < |p| ==> p[j] != Kw(InKw)
    requires NoBrace(e) && Compile(b).Ok? && Compile(rest).Ok?
    ensures Compile([Kw(ForKw)] + (p + [Kw(InKw)] + (e + [Brace(b)] + rest)))
         == Ok([For(p, HeadExpr(e), Compile(b).value)] + Compile(rest).value)
  {
    var after := e + [Brace(b)] + rest;
    var us := p + [Kw(InKw)] + after;
    HeaderSplitsAtFirstBrace(e, b, rest);
    ForSplitsAtIn(p, after);
    assert ([Kw(ForKw)] + us)[1..] == us;
    CompileForKw([Kw(ForKw)] + us);
  }

  // ---------------------------------------------------------------------------
  // `let` and the escape hatch

  /** A pattern ends at the first `stop`, and the slices around it are the
      pattern and what follows. */
  lemma PatternEndsAt(p: seq<Tok>, stop: Tok, after: seq<Tok>, stops: set<Tok>)
    requires stop in stops && forall j :: 0 <= j < |p| ==> p[j] !in stops
    ensures Find(p + [stop] + after, stops) == |p|
    ensures (p + [stop] + after)[..|p|] == p
    ensures (p + [stop] + after)[|p| + 1..] == after
  {
    var us := p + [stop] + after;
    assert us == p + ([stop] + after);
    FindSkips(p, [stop] + after, stops);
    assert us[..|p|] == p;
    assert us[|p| + 1..] == after;
  }

  lemma CompileLetKw(ts: seq<Tok>)
    requires StartsWith(ts, Kw(LetKw))
    ensures Compile(ts) == CompileLet(ts[1..])
  {
    assert ts != [] && ts[0].Kw? && ts[0].kw == LetKw;
    assert Compile(ts) == CompileKeyword(ts);
  }

  lemma CompileEscapeKw(ts: seq<Tok>)
    requires StartsWith(ts, Pipe)
    ensures Compile(ts) == CompileEscape(ts[1..])
  {
  }

  /** `let p = e;` binds `p` for the rest of the template. */
  lemma LetCompiles(p: seq<Tok>, e: seq<Tok>, rest: seq<Tok>)
    requires |p| > 0 && forall j :: 0 <= j < |p| ==> p[j] != Assign
    requires IsExpr(e) && Compile(rest).Ok?
    ensures Compile([Kw(LetKw)] + (p + [Assign] + (e + [Semi] + rest)))
         == Ok([Let(p, e)] + Compile(rest).value)
  {
    var after := e + [Semi] + rest;
    var us := p + [Assign] + after;
    assert ([Kw(LetKw)] + us)[1..] == us;
    CompileLetKw([Kw(LetKw)] + us);
    LetPatternEnds(p, after);
    LetInitEnds(p, e, rest);
  }

  lemma LetPatternEnds(p: seq<Tok>, after: seq<Tok>)
    requires |p| > 0 && forall j :: 0 <= j < |p| ==> p[j] != Assign
    ensures |p| < |p + [Assign] + after|
    ensures CompileLet(p + [Assign] + after) == LetInit(p + [Assign] + after, |p|)
  {
    PatternEndsAt(p, Assign, after, {Assign});
  }

  lemma LetInitEnds(p: seq<Tok>, e: seq<Tok>, rest: seq<Tok>)
    requires |p| > 0 && IsExpr(e) && Compile(rest).Ok?
    ensures LetInit(p + [Assign] + (e + [Semi] + rest), |p|) == Ok([Let(p, e)] + Compile(rest).value)
  {
    var us := p + [Assign] + (e + [Semi] + rest);
    assert us[..|p|] == p;
    assert us[|p| + 1..] == e + [Semi] + rest;
    PatternEndsAt(e, Semi, rest, {Semi});
  }

  /** `|f| { block }`: escape-hatch code as a block. */
  lemma EscapeBlockCompiles(alias: seq<Tok>, b: seq<Tok>, rest: seq<Tok>)
    requires |alias| > 0 && forall j :: 0 <= j < |alias| ==> alias[j] != Pipe
    requires Compile(rest).Ok?
    ensures Compile([Pipe] + (alias + [Pipe] + ([Brace(b)] + rest)))
         == Ok([Escape(alias, Block(b))] + Compile(rest).value)
  {
    var after := [Brace(b)] + rest;
    var us := alias + [Pipe] + after;
    PatternEndsAt(alias, Pipe, after, {Pipe});
    assert after[1..] == rest;
    assert ([Pipe] + us)[1..] == us;
    CompileEscapeKw([Pipe] + us);
  }

  /** `|f| statement;`: escape-hatch code as one statement. */
  lemma EscapeStmtCompiles(alias: seq<Tok>, code: seq<Tok>, rest: seq<Tok>)
    requires |alias| > 0 && forall j :: 0 <= j < |alias| ==> alias[j] != Pipe
    requires |code| > 0 && !code[0].Brace? && forall j :: 0 <= j < |code| ==> code[j] != Semi
    requires Compile(rest).Ok?
    ensures Compile([Pipe] + (alias + [Pipe] + (code + [Semi] + rest)))
         == Ok([Escape(alias, Stmt(code))] + Compile(rest).value)
  {
    var after := code + [Semi] + rest;
    var us := alias + [Pipe] + after;
    PatternEndsAt(alias, Pipe, after, {Pipe});
    PatternEndsAt(code, Semi, rest, {Semi});
    assert after[0] == code[0];
    assert ([Pipe] + us)[1..] == us;
    CompileEscapeKw([Pipe] + us);
  }

  /** After `let p = e;` the rest of the template runs in the scope the
      binding extends; the `let` itself writes nothing. */
  lemma LetScopesRest<S>(h: Host<S>, p: seq<Tok>, e: seq<Tok>, rest: seq<Tok>, sc: S)
    requires |p| > 0 && forall j :: 0 <= j < |p| ==> p[j] != Assign
    requires IsExpr(e) && Compile(rest).Ok?
    ensures Compile([Kw(LetKw)] + (p + [Assign] + (e + [Semi] + rest))).Ok?
    ensures EmitPlan(h, Compile([Kw(LetKw)] + (p + [Assign] + (e + [Semi] + rest))).value, sc)
         == EmitPlan(h, Compile(rest).value, h.bind(sc, p, e))
  {
    LetCompiles(p, e, rest);
    var r := Compile(rest).value;
    assert ([Let(p, e)] + r)[1..] == r;
    var w := EmitPlan(h, r, h.bind(sc, p, e)).1;
    assert [] + w == w;
  }

  /** `|f| { block }`: the block writes first, in the scope where `f` names
      the formatter; afterwards `f` stays bound for the rest of the template,
      but nothing the block binds does. */
  lemma EscapeScopesRest<S>(h: Host<S>, alias: seq<Tok>, b: seq<Tok>, rest: seq<Tok>, sc: S)
    requires |alias| > 0 && forall j :: 0 <= j < |alias| ==> alias[j] != Pipe
    requires Compile(rest).Ok?
    ensures Compile([Pipe] + (alias + [Pipe] + ([Brace(b)] + rest))).Ok?
    ensures EmitPlan(h, Compile([Pipe] + (alias + [Pipe] + ([Brace(b)] + rest))).value, sc)
         == (EmitPlan(h, Compile(rest).value, h.alias(sc, alias)).0,
             h.escape(h.alias(sc, alias), Block(b)).1 + EmitPlan(h, Compile(rest).value, h.alias(sc, alias)).1)
  {
    EscapeBlockCompiles(alias, b, rest);
    var r := Compile(rest).value;
    assert ([Escape(alias, Block(b))] + r)[1..] == r;
  }

  /** `|f| statement;`: the statement writes first, with `f` bound; whatever
      it binds stays visible to the rest of the template, as `f` does. */
  lemma EscapeStmtScopesRest<S>(h: Host<S>, alias: seq<Tok>, code: seq<Tok>, rest: seq<Tok>, sc: S)
    requires |alias| > 0 && forall j :: 0 <= j < |alias| ==> alias[j] != Pipe
    requires |code| > 0 && !code[0].Brace? && forall j :: 0 <= j < |code| ==> code[j] != Semi
    requires Compile(rest).Ok?
    ensures Compile([Pipe] + (alias + [Pipe] + (code + [Semi] + rest))).Ok?
    ensures EmitPlan(h, Compile([Pipe] + (alias + [Pipe] + (code + [Semi] + rest))).value, sc)
         == (EmitPlan(h, Compile(rest).value, h.escape(h.alias(sc, alias), Stmt(code)).0).0,
             h.escape(h.alias(sc, alias), Stmt(code)).1
               + EmitPlan(h, Compile(rest).value, h.escape(h.alias(sc, alias), Stmt(code)).0).1)
  {
    EscapeStmtCompiles(alias, code, rest);
    var r := Compile(rest).value;
    assert ([Escape(alias, Stmt(code))] + r)[1..] == r;
  }

  /** A literal run renders as the plain concatenation of its texts. */
  lemma LiteralsRender<S>(h: Host<S>, lits: seq<Tok>, sc: S)
    requires |lits| >= 1 && AllLits(lits)
    ensures Compile(lits).Ok?
    ensures EmitPlan(h, Compile(lits).value, sc).1 == [Concat(lits)]
  {
    LiteralsCoalesce(lits, []);
    assert lits + [] == lits;
    assert [WriteStr(Concat(lits))] + [] == [WriteStr(Concat(lits))];
  }

  /** The arms `0 => "0", 1 => {} _ => {},` compile, in order, to three arms
      with bodies `write_str("0")`, nothing and nothing. */
  lemma ArmsExample()
    ensures Arms([], [Lit("0"), FatArrow, Lit("0"), Comma]
                     + ([Lit("1"), FatArrow, Brace([])] + [Ident("_"), FatArrow, Brace([]), Comma]))
         == Ok([Arm([Lit("0")], None, [WriteStr("0")]), Arm([Lit("1")], None, []),
                Arm([Ident("_")], None, [])])
  {
    FirstArmExample();
    SecondArmExample();
    ThirdArmExample();
  }

  lemma FirstArmExample()
    ensures Arms([], [Lit("0"), FatArrow, Lit("0"), Comma]
                     + ([Lit("1"), FatArrow, Brace([])] + [Ident("_"), FatArrow, Brace([]), Comma]))
         == Arms([Arm([Lit("0")], None, [WriteStr("0")])],
                 [Lit("1"), FatArrow, Brace([])] + [Ident("_"), FatArrow, Brace([]), Comma])
  {
    var t2 := [Lit("1"), FatArrow, Brace([])] + [Ident("_"), FatArrow, Brace([]), Comma];
    var t1 := [Lit("0"), FatArrow, Lit("0"), Comma] + t2;
    var arm := Arm([Lit("0")], None, [WriteStr("0")]);
    FirstArmHead(t2);
    TwoLiteralsBase();
    UnbracedBody([], t1, [Lit("0")], None, [Lit("0")], [Comma] + t2);
    assert ([Comma] + t2)[1..] == t2;
    assert [] + [Arm([Lit("0")], None, [WriteStr("0")])] == [Arm([Lit("0")], None, [WriteStr("0")])];
  }

  lemma FirstArmHead(t2: seq<Tok>)
    ensures ArmHead([Lit("0"), FatArrow, Lit("0"), Comma] + t2)
         == Ok(([Lit("0")], None, [Lit("0")] + ([Comma] + t2)))
  {
    HeadPlain([Lit("0")], [Lit("0")] + ([Comma] + t2));
    assert [Lit("0")] + [FatArrow] + ([Lit("0")] + ([Comma] + t2)) == [Lit("0"), FatArrow, Lit("0"), Comma] + t2;
  }

  lemma SecondArmExample()
    ensures Arms([Arm([Lit("0")], None, [WriteStr("0")])],
                 [Lit("1"), FatArrow, Brace([])] + [Ident("_"), FatArrow, Brace([]), Comma])
         == Arms([Arm([Lit("0")], None, [WriteStr("0")]), Arm([Lit("1")], None, [])],
                 [Ident("_"), FatArrow, Brace([]), Comma])
  {
    var t3 := [Ident("_"), FatArrow, Brace([]), Comma];
    TwoLiteralsBase();
    HeadPlain([Lit("1")], [Brace([])] + t3);
    assert [Lit("1")] + [FatArrow] + ([Brace([])] + t3) == [Lit("1"), FatArrow, Brace([])] + t3;
    BracedBody([Arm([Lit("0")], None, [WriteStr("0")])], [Lit("1"), FatArrow, Brace([])] + t3,
               [Lit("1")], None, [], t3);
    assert !StartsWith(t3, Comma);
    assert [Arm([Lit("0")], None, [WriteStr("0")])] + [Arm([Lit("1")], None, [])]
        == [Arm([Lit("0")], None, [WriteStr("0")]), Arm([Lit("1")], None, [])];
  }

  lemma ThirdArmExample()
    ensures Arms([Arm([Lit("0")], None, [WriteStr("0")]), Arm([Lit("1")], None, [])],
                 [Ident("_"), FatArrow, Brace([]), Comma])
         == Ok([Arm([Lit("0")], None, [WriteStr("0")]), Arm([Lit("1")], None, []),
                Arm([Ident("_")], None, [])])
  {
    var acc := [Arm([Lit("0")], None, [WriteStr("0")]), Arm([Lit("1")], None, [])];
    TwoLiteralsBase();
    HeadPlain([Ident("_")], [Brace([])] + [Comma]);
    assert [Ident("_")] + [FatArrow] + ([Brace([])] + [Comma]) == [Ident("_"), FatArrow, Brace([]), Comma];
    BracedBody(acc, [Ident("_"), FatArrow, Brace([]), Comma], [Ident("_")], None, [], [Comma]);
    assert [Comma][1..] == [];
    ArmsEnd(acc + [Arm([Ident("_")], None, [])]);
    assert acc + [Arm([Ident("_")], None, [])]
        == [Arm([Lit("0")], None, [WriteStr("0")]), Arm([Lit("1")], None, []), Arm([Ident("_")], None, [])];
  }

  lemma TwoLiteralsBase()
    ensures Compile([Lit("0")]) == Ok([WriteStr("0")])
    ensures Compile([]) == Ok([])
  {
    LiteralsCoalesce([Lit("0")], []);
    assert [Lit("0")] + [] == [Lit("0")];
    assert [Lit("0")][1..] == [];
    assert Concat([Lit("0")]) == "0" + "" == "0";
    assert [WriteStr("0")] + [] == [WriteStr("0")];
  }
}

=== FILE: tokens.dfy ===
/** Rust token trees as the `fmt!` macros receive them.

    A delimited group -- `( … )`, `[ … ]` or `{ … }` -- is ONE token tree whose
    interior is not looked at until the rule that owns the group asks for it.
    Every scanner in the template compiler walks the top level of a token list
    only, which is why a brace, comma or colon nested inside a group can never be
    mistaken for a delimiter. */
module Tokens {

  /** The keywords the template grammar dispatches on. Every other word
      (including `move`, which only the outermost `fmt!` rule inspects) is an
      identifier. */
  datatype Keyword = LetKw | IfKw | ElseKw | MatchKw | ForKw | InKw

  datatype Tok =
    | Lit(text: string)     // a literal; `text` is what `concat!` makes of it, so `0` and "0" are one token
    | Ident(name: string)
    | Punct(op: string)     // one operator token: ":", "::", "=", "=>", ",", ";", "|", …
    | Kw(kw: Keyword)
    | Paren(tts: seq<Tok>)
    | Bracket(tts: seq<Tok>)
    | Brace(tts: seq<Tok>)

  const Colon := Punct(":")
  const Semi := Punct(";")
  const Comma := Punct(",")
  const Assign := Punct("=")
  const Pipe := Punct("|")
  const FatArrow := Punct("=>")

  /** Index of the first top-level token that belongs to `stops`, or `|ts|` when
      there is none. */
  function Find(ts: seq<Tok>, stops: set<Tok>): (i: nat)
    ensures i <= |ts|
    ensures forall j :: 0 <= j < i ==> ts[j] !in stops
    ensures i < |ts| ==> ts[i] in stops
  {
    if ts == [] then 0
    else if ts[0] in stops then 0
    else 1 + Find(ts[1..], stops)
  }

  /** The first stop of `a + b` lies in `b` when `a` holds none. */
  lemma {:induction false} FindSkips(a: seq<Tok>, b: seq<Tok>, stops: set<Tok>)
    requires forall j :: 0 <= j < |a| ==> a[j] !in stops
    ensures Find(a + b, stops) == |a| + Find(b, stops)
  {
    if a != [] {
      assert (a + b)[0] == a[0] && a[0] !in stops;
      assert (a + b)[1..] == a[1..] + b;
      FindSkips(a[1..], b, stops);
    } else {
      assert a + b == b;
    }
  }

  /** Number of token trees in `t`, nested ones included; compilation recurses
      on token lists of strictly smaller size. */
  function Size(t: Tok): (n: nat)
    ensures n >= 1
  {
    match t
    case Paren(ts) => 1 + SizeSeq(ts)
    case Bracket(ts) => 1 + SizeSeq(ts)
    case Brace(ts) => 1 + SizeSeq(ts)
    case _ => 1
  }

  function SizeSeq(ts: seq<Tok>): nat {
    if ts == [] then 0 else Size(ts[0]) + SizeSeq(ts[1..])
  }

  lemma {:induction false} SizeSeqConcat(a: seq<Tok>, b: seq<Tok>)
    ensures SizeSeq(a + b) == SizeSeq(a) + SizeSeq(b)
  {
    if a == [] {
      assert a + b == b;
    } else {
      assert (a + b)[0] == a[0];
      assert (a + b)[1..] == a[1..] + b;
      SizeSeqConcat(a[1..], b);
    }
  }

  /** Dropping `k` leading tokens shrinks the size by at least `k`. */
  lemma SizeSuffix(ts: seq<Tok>, k: nat)
    requires k <= |ts|
    ensures SizeSeq(ts[k..]) + k <= SizeSeq(ts)
  {
    assert ts == ts[..k] + ts[k..];
    SizeSeqConcat(ts[..k], ts[k..]);
    SizeAtLeastLength(ts[..k]);
  }

  lemma {:induction false} SizeAtLeastLength(ts: seq<Tok>)
    ensures SizeSeq(ts) >= |ts|
  {
    if ts != [] {
      SizeAtLeastLength(ts[1..]);
    }
  }

  /** The interior of a group in `ts` is smaller than `ts`. */
  lemma SizeInterior(ts: seq<Tok>, k: nat)
    requires k < |ts| && (ts[k].Paren? || ts[k].Bracket? || ts[k].Brace?)
    ensures SizeSeq(ts[k].tts) < SizeSeq(ts)
  {
    assert ts == ts[..k] + ([ts[k]] + ts[k + 1..]);
    SizeSeqConcat(ts[..k], [ts[k]] + ts[k + 1..]);
    SizeSeqConcat([ts[k]], ts[k + 1..]);
    assert SizeSeq([ts[k]]) == Size(ts[k]);
  }

  /** Both sides of a brace group split off `ts` are smaller than `ts`. */
  lemma SizeAroundBrace(ts: seq<Tok>, e: seq<Tok>, body: seq<Tok>, tail: seq<Tok>)
    requires ts == e + [Brace(body)] + tail
    ensures SizeSeq(body) < SizeSeq(ts) && SizeSeq(tail) < SizeSeq(ts)
  {
    SizeSeqConcat(e + [Brace(body)], tail);
    SizeSeqConcat(e, [Brace(body)]);
    assert SizeSeq([Brace(body)]) == 1 + SizeSeq(body);
  }

  /** A plain `$e:expr` fragment, as far as token structure can tell: a
      non-empty token list with no top-level comma or semicolon (an expression
      never contains either outside a group). Everything else about expressions
      is left to the host language. */
  predicate IsExpr(ts: seq<Tok>) {
    |ts| > 0 && forall j :: 0 <= j < |ts| ==> ts[j] != Comma && ts[j] != Semi
  }

  function KeywordText(k: Keyword): string {
    match k
    case LetKw => "let"
    case IfKw => "if"
    case ElseKw => "else"
    case MatchKw => "match"
    case ForKw => "for"
    case InKw => "in"
  }

  /** `stringify!` of one token tree. */
  function Spelling(t: Tok): string {
    match t
    case Lit(s) => s
    case Ident(n) => n
    case Punct(p) => p
    case Kw(k) => KeywordText(k)
    case Paren(ts) => "(" + Spaced(ts) + ")"
    case Bracket(ts) => "[" + Spaced(ts) + "]"
    case Brace(ts) => "{" + Spaced(ts) + "}"
  }

  /** The spellings of a group's interior, separated by single spaces. */
  function Spaced(ts: seq<Tok>): string {
    if ts == [] then ""
    else if |ts| == 1 then Spelling(ts[0])
    else Spelling(ts[0]) + " " + Spaced(ts[1..])
  }

  /** `concat!` of the per-token `stringify!`s, as a format specifier is built. */
  function Spell(ts: seq<Tok>): string {
    if ts == [] then "" else Spelling(ts[0]) + Spell(ts[1..])
  }
}

=== FILE: wrappers.dfy ===
/** Failure-compatible result types shared by the template compiler and the
    renderers. */
module Wrappers {

  /** An optional value: an `else` body, a match-arm guard, a pattern test. */
  datatype Option<T> = None | Some(value: T)

  /** The outcome of a compilation step; usable with `:-`. */
  datatype Result<T, E> = Ok(value: T) | Err(error: E) {

    predicate IsFailure() {
      Err?
    }

    function PropagateFailure<U>(): Result<U, E>
      requires Err?
    {
      Err(error)
    }

    function Extract(): T
      requires Ok?
    {
      value
    }
  }
}
